=== FILE: README.md ===
# NQx NFC driver, Adreno GPU identification and APR cause buffers, in Dafny

This project models three pieces of a vendor Android kernel tree and proves
properties of the models.

- **The NQx NFC controller driver** (`drivers/nfc/nq-nci.c`). It covers:
  - interrupt masking and the interrupt handler's bookkeeping;
  - open, suspend and resume;
  - the decisions of the read and write paths, including the wait loop and its retry budget;
  - the power-state command (`SET_PWR`) and eSE power;
  - the ioctl dispatch, native and compat;
  - the probe and its unwind labels.

  The driver's effects on GPIO lines and on the interrupt are recorded as a
  trace of events. Every transition's trace explains its hardware change:
  replaying the trace over the old line levels gives the new ones.
- **Adreno GPU identification** (`drivers/gpu/drm/msm/adreno/adreno_device.c`).
  It covers the revision table with its `ANY_ID` wildcard, first-match lookup,
  the split of the 32-bit chip ID into a revision, and the decisions of
  `adreno_load_gpu`.
- **The APR power-on/off cause buffers** (`drivers/fih/fih_apr.c`). It covers:
  - four 16-byte C strings loaded from device-tree properties with `strlcpy`;
  - the three proc entries that show them;
  - the write handler of the power-on cause entry.

Kernel calls the code depends on are inputs of the model functions. These are
i2c transfers, user copies, `gpio_is_valid`, allocations, the interrupt line
level and what a blocking wait observes. Each module's header comment says
which inputs it takes.

Modules: `Kernel` (shared option type, integer widths, errno values),
`NfcState`, `NfcPower`, `NfcIo`, `NfcProbe`, `Adreno`, `FihApr`.

## Model

| member | source | states |
|---|---|---|
| NfcState.DisableIrq | drivers/nfc/nq-nci.c:132-142 | The interrupt ends masked, and nothing else in the session changes. An `IrqOff` event is issued exactly when it was unmasked. The trace explains the change. |
| NfcState.DisableIrqIdempotent | drivers/nfc/nq-nci.c:132-142 | Masking twice is masking once. The second call issues no event. |
| NfcState.IrqHandler | drivers/nfc/nq-nci.c:144-156 | The interrupt ends masked. The handled-interrupt counter advances by one modulo 2^32, so it is plainly one more when it does not wrap. No line is driven, and only the mask and the counter change. |
| NfcState.Open | drivers/nfc/nq-nci.c:433-445 | Open resets the interrupt counter to zero (through the init helper) and leaves the rest of the session unchanged. |
| NfcState.CountsSinceOpen | drivers/nfc/nq-nci.c:152-155 | After an open and n handled interrupts (n below 2^32), the counter is exactly n. No line is driven: of the hardware state only the interrupt mask differs, and nothing else in the session has changed. |
| NfcState.Suspend | drivers/nfc/nq-nci.c:168-189 | With the interrupt line high, suspend is refused with -EBUSY and changes nothing. Otherwise it returns 0, issues nothing, and marks the session suspended if VEN is high. |
| NfcState.Resume | drivers/nfc/nq-nci.c:191-207 | Resume returns 0. The suspended mark is cleared exactly when VEN is high. |
| NfcState.SuspendResume | drivers/nfc/nq-nci.c:168-207 | A successful suspend followed by a resume restores the session, with one exception: a session that was already marked suspended while VEN was low stays marked. |
| NfcState.Unmask | drivers/nfc/nq-nci.c:245-248 | The interrupt ends unmasked. `IrqOn` is issued exactly when it was masked, and nothing else changes. |
| NfcPower.DownloadMode | drivers/nfc/nq-nci.c:550-572 | Returns 0. Afterwards the interrupt is unmasked and VEN is high. Firmware mode is high when its line is valid. eSE is untouched. `IrqOn` is issued exactly when the interrupt was masked. |
| NfcPower.PowerLevel | drivers/nfc/nq-nci.c:573-586 | Returns 0 and sets VEN to the requested level. Firmware mode is driven low exactly when its GPIO number is nonzero. The writes are exactly firmware mode low (only for a nonzero number) and then VEN, in that order. The interrupt mask and eSE are untouched. |
| NfcPower.EseAcquire | drivers/nfc/nq-nci.c:386-407 | The acquire records whether VEN was high and leaves VEN high. eSE is raised exactly when its line is valid. The result is 0 for a valid line and -1 otherwise. `Drive(Ven, true)` is issued exactly when VEN was low. |
| NfcPower.EseRelease | drivers/nfc/nq-nci.c:408-421 | The release lowers eSE when its line is valid. VEN stays high only if the acquire found it high. The result is 0 for a valid line and -1 otherwise. `Drive(Ven, false)` is issued exactly when the acquire found VEN low. |
| NfcPower.SetPower | drivers/nfc/nq-nci.c:545-593 | Arguments above 2 get -EINVAL with no effect; arguments 0–2 return 0. For 0 and 1, VEN ends at the requested level, firmware mode is low unless the number is zero, and the mask is untouched; the writes are exactly firmware mode low (only for a nonzero number) and then VEN. For 2, VEN is high, firmware mode is high when valid, and the interrupt is unmasked. |
| NfcPower.FirmwareDownloadSequence | drivers/nfc/nq-nci.c:555-572 | The download-mode power-up issues exactly: unmask (if masked), VEN high, firmware high (if valid), VEN low, VEN high. Its line writes are that sequence without the unmask. |
| NfcPower.SetPowerIdempotent | drivers/nfc/nq-nci.c:573-586 | Powering off twice, or on twice, leaves the session as a single call does. |
| NfcPower.EsePower | drivers/nfc/nq-nci.c:381-431 | Acquire records VEN's level, raises VEN only if it was low, and raises eSE when its line is valid (result 0, else -1). Release lowers eSE, and lowers VEN only if the acquire found it low. Query changes nothing. It returns 0 when VEN was recorded low, the eSE level when VEN was recorded high and the line is valid, and -1 when the line is invalid. Any other argument returns -1 with no effect. |
| NfcPower.EseAcquireReleaseRestoresVen | drivers/nfc/nq-nci.c:381-431 | An acquire followed by a release leaves VEN at its earlier level. A controller that was on is never powered off by the release. |
| NfcPower.Ioctl | drivers/nfc/nq-nci.c:659-688 | Each command dispatches to its handler and returns that handler's result. The two query commands return their `unsigned int` value through `int`, congruent modulo 2^32. Unknown commands get -ENOIOCTLCMD with no effect. |
| NfcPower.CompatIoctl | drivers/nfc/nq-nci.c:597-620 | Returns 0 exactly for the five known commands, with the same state change and trace as the native dispatch. Everything else gets -ENOTTY and is untouched. |
| NfcPower.IoctlKeepsBookkeeping | drivers/nfc/nq-nci.c:659-688 | No ioctl touches the interrupt counter, the suspend mark or the pin configuration. |
| NfcIo.Pass | drivers/nfc/nq-nci.c:244-253 | One pass through the retry label: the carried wait result is kept when the line was already high; otherwise it is replaced by -ERESTARTSYS on a signal and by 0 on a completed wait. The pass ends masked. |
| NfcIo.WaitFrom | drivers/nfc/nq-nci.c:241-279 | The wait loop ends ready only right after a pass that saw the line high, with the interrupt masked. It fails with -ERESTARTSYS only after at least retries+1 passes. Any other outcome means it is still waiting with every observation used. The trace explains the change, and only the hardware state and the counter change; `NfcIo.WaitDrivesNoLine` narrows the hardware change to the mask. |
| NfcIo.WaitDrivesNoLine | drivers/nfc/nq-nci.c:241-279 | The wait loop drives no line: wherever it stops, the session differs from the one it started from at most in the interrupt mask and the interrupt counter. |
| NfcIo.WaitForIrq | drivers/nfc/nq-nci.c:241-279 | The wait loop as entered from the top of `while (1)`, with the full budget of five retries. It ends ready only right after a pass that saw the line high. It fails with -ERESTARTSYS only after at least six passes. Otherwise it is still waiting with every observation used. The trace explains the change, and only the interrupt mask and the counter differ. |
| NfcIo.StopsAtFirstCompletion | drivers/nfc/nq-nci.c:241-277 | The loop breaks at the first wait that completes and then finds the line high. No observation it used is such a wait, except the last one when it ends ready. |
| NfcIo.CompletedWaitReady | drivers/nfc/nq-nci.c:241-277 | When the first wait completes and finds the line high, the loop ends ready after one observation, whatever retries are left. The interrupt counter is then one more, modulo 2^32. |
| NfcIo.SpuriousWakeResetsRetries | drivers/nfc/nq-nci.c:241-279 | After a completed wait that finds the line low, the outcome no longer depends on how many retries were left. |
| NfcIo.SixSignalsFail | drivers/nfc/nq-nci.c:254-268 | Six interrupted waits in a row fail the read after exactly six passes. |
| NfcIo.InterruptedThenHighFails | drivers/nfc/nq-nci.c:244-268 | After one interrupted wait, five passes that find the line already high still fail the read. The error is carried because no new wait resets it. |
| NfcIo.Unroll | drivers/nfc/nq-nci.c:244-268 | With a nonzero carried result and r remaining retries, r+1 passes that do not complete a wait end in failure after exactly r+1 observations. |
| NfcIo.Read | drivers/nfc/nq-nci.c:211-327 | No session gives -ENODEV. The request is clamped to 320 bytes. Non-blocking with no data gives -EAGAIN, untouched. A line high at entry skips the wait. A blocking read that finds the line low ends as its wait does: -ERESTARTSYS with no transfer when the retries run out, no result while still waiting, and after a ready wait the transfer, or -ENODEV when the buffer is missing. A transfer happens only after the line is seen high. Transfer errors pass through, over-long transfers give -EIO, and a failed copy gives -EFAULT. A success returns the received count, at most the clamped request. No line is driven: only the interrupt mask and the counter can differ. |
| NfcIo.ReadAfterCompletedWait | drivers/nfc/nq-nci.c:241-314 | A blocking read whose first wait completes and finds the line high goes on to the transfer, with the request clamped to 320 bytes. The counter advances by one. A transfer of up to that many bytes that copies out is returned as the read's result. |
| NfcIo.ReadAfterSpuriousWake | drivers/nfc/nq-nci.c:241-314 | A completed wait that finds the line low sends the read round the outer loop. A second wait that completes with the line high then leads to the transfer, with two interrupts counted. |
| NfcIo.ReadSixSignalsFails | drivers/nfc/nq-nci.c:241-268 | A blocking read whose first six waits are all ended by signals returns -ERESTARTSYS without a transfer. |
| NfcIo.Write | drivers/nfc/nq-nci.c:329-373 | No session gives -ENODEV. Payloads over 320 bytes get -ENOMEM before any copy. A copy error is returned as is. A transfer not equal to the count gives -EIO. A nonnegative result is exactly the count, sent whole. With a session, a payload that fits and a successful copy, the whole count is handed to the transfer. |
| NfcIo.WriteSucceedsIff | drivers/nfc/nq-nci.c:329-373 | When the copy does not report a positive value, a write succeeds exactly when there is a session, the payload fits in 320 bytes, the copy succeeds and the transfer sends the whole count. A result equal to a positive count means the count was sent. |
| NfcProbe.Unwind | drivers/nfc/nq-nci.c:1240-1274 | The releases from each unwind label to the end of probe. The optional eSE release is skipped, and the platform data is released only for a device-tree node. It is a plain definition with no contract. `NfcProbe.UnwindReversesHeld` states its meaning against `NfcProbe.Held`. |
| NfcProbe.UnwindReversesHeld | drivers/nfc/nq-nci.c:1240-1274 | For every label, `Unwind` (the releases from that label on) equals `Held` (what probe holds on reaching that label, a reference definition built from the acquisition order) reversed: exactly what is held is released, newest first. |
| NfcProbe.Fail | drivers/nfc/nq-nci.c:1241-1274 | A jump to an unwind label releases the reverse of what was acquired and registers no session. |
| NfcProbe.FreshSession | drivers/nfc/nq-nci.c:1139-1217 | A completed probe leaves VEN and firmware mode low, the interrupt masked, the counter zero and the read buffer allocated. The firmware GPIO number and eSE validity are the probed ones, and eSE keeps its level at probe. The chip identity is the word that `nfcc_hw_check` stored. |
| NfcProbe.ProbeRegister | drivers/nfc/nq-nci.c:1145-1181 | Registration succeeds with the fresh session and nothing released exactly when the sysfs, misc-device and interrupt calls all succeed. Otherwise it returns the first failing call's result and releases everything in reverse. |
| NfcProbe.ProbePins | drivers/nfc/nq-nci.c:1016-1084 | The VEN, IRQ and firmware lines are taken in order, and each failure jumps to the label that releases exactly what is held. A missing line reports `missingPinErr`. A failing request, direction or `gpio_to_irq` call reports its own result. A session is registered exactly when every line call and registration call succeeds. |
| NfcProbe.ProbeIrqLine | drivers/nfc/nq-nci.c:1039-1084 | The IRQ line and its interrupt number, then the firmware line. A missing line reports `missingPinErr`. A failing call reports its own result. Success needs every later call to succeed too. |
| NfcProbe.ProbeFirmLine | drivers/nfc/nq-nci.c:1064-1084 | The firmware line, then registration. A missing line reports `missingPinErr`. A failing call reports its own result. Success needs every registration call to succeed too. |
| NfcProbe.ProbeWith | drivers/nfc/nq-nci.c:954-1275 | A session is registered exactly when every kernel call succeeds. Success holds the platform data (device-tree case), session, buffer, three lines, lock, misc device and interrupt handler, and releases nothing. Any failure releases exactly what it acquired, in reverse. A failed platform-data allocation gives -ENOMEM, and missing board data gives -ENODEV, both with nothing held. A missing plain-i2c capability gives -ENODEV, and a failed session or buffer allocation gives -ENOMEM. |
| NfcProbe.ProbeAsWritten | drivers/nfc/nq-nci.c:954-1275 | `nqx_probe` as written, where a missing line leaves the result 0. A session is registered exactly when every call succeeds, and a failure releases what it acquired, in reverse. `AsWrittenMissingPinReportsSuccess` and `AsWrittenNoVenExample` state the zero result. |
| NfcProbe.ProbeIntended | drivers/nfc/nq-nci.c:954-1275 | `nqx_probe` with a missing line reported as -EINVAL. A session is registered exactly when every call succeeds, and a failure releases what it acquired, in reverse. `IntendedZeroMeansRegistered` states that a zero result then means a registered session. |
| NfcProbe.AsWrittenMissingPinReportsSuccess | drivers/nfc/nq-nci.c:1033-1036 | As written, a missing VEN, IRQ or firmware line makes probe return 0 after releasing, among at least two resources, both the read buffer and the session memory, in reverse order of acquisition, so no session exists. |
| NfcProbe.AsWrittenNoVenExample | drivers/nfc/nq-nci.c:1033-1036 | A board without a VEN line: probe returns 0, registers nothing, and releases the buffer, the session and the platform data. |
| NfcProbe.IntendedZeroMeansRegistered | drivers/nfc/nq-nci.c:1060-1063 | With a missing line reported as -EINVAL, a zero result holds exactly when a session was registered. |
| Adreno.RevMatch | drivers/gpu/drm/msm/adreno/adreno_device.c:52-55 | `_rev_match`: a table field matches when it is the `ANY_ID` wildcard 0xff or equals the revision's field. It is a plain definition with no contract. Its consequences are stated by `Adreno.KnownIff`, `Adreno.LookupIgnoresPatchId` and `Adreno.EntriesDisjoint`. |
| Adreno.FirstMatchFrom | drivers/gpu/drm/msm/adreno/adreno_device.c:57-72 | Returns the first index whose entry matches all four fields, with no earlier match. It returns none exactly when no entry matches. |
| Adreno.Lookup | drivers/gpu/drm/msm/adreno/adreno_device.c:57-72 | The result is the earliest matching table entry, or none exactly when no entry matches. |
| Adreno.AdrenoInfo | drivers/gpu/drm/msm/adreno/adreno_device.c:57-72 | `adreno_info` over the driver's two-entry table. A result is a table entry whose four fields match the revision, and there is none exactly when no entry matches. |
| Adreno.KnownRevisions | drivers/gpu/drm/msm/adreno/adreno_device.c:29-47 | Every 5.3.0.x is the A530 entry and every 5.4.0.x the A540 entry, whatever the patch ID. |
| Adreno.LookupIgnoresPatchId | drivers/gpu/drm/msm/adreno/adreno_device.c:29-72 | Two revisions that differ only in the patch ID find the same table entry, or both find none. |
| Adreno.KnownIff | drivers/gpu/drm/msm/adreno/adreno_device.c:29-72 | A revision is known exactly when it is 5.3.0.x or 5.4.0.x. |
| Adreno.EntriesDisjoint | drivers/gpu/drm/msm/adreno/adreno_device.c:29-72 | No revision matches both entries, so the table order does not change any lookup. |
| Adreno.DecodeChipId | drivers/gpu/drm/msm/adreno/adreno_device.c:152-153 | The four bytes of the chip ID, from the top, are core, major, minor and patch. Re-encoding them gives the chip ID back. |
| Adreno.ChipIdRoundTrip | drivers/gpu/drm/msm/adreno/adreno_device.c:152-153 | Decoding and encoding are inverse in both directions. |
| Adreno.AdrenoBind | drivers/gpu/drm/msm/adreno/adreno_device.c:134-158 | A failed chip-ID read fails the bind with that error. Otherwise the bound revision encodes the chip ID read. |
| Adreno.ChipIdSelectsEntry | drivers/gpu/drm/msm/adreno/adreno_device.c:134-158 | Chip IDs 0x050300xx select the A530 entry and 0x050400xx the A540 entry. |
| Adreno.LoadGpu | drivers/gpu/drm/msm/adreno/adreno_device.c:74-125 | Without a bound device or a known revision, nothing is called and there is no GPU. The init hook is called exactly for known revisions, and hardware init exactly when init returned a GPU. That GPU is destroyed exactly when hardware init fails, and returned exactly when it succeeds. |
| Adreno.BindThenLoad | drivers/gpu/drm/msm/adreno/adreno_device.c:74-158 | From a bind to a load: the GPU init hook is called exactly when the chip ID was read and its top three bytes are 05.03.00 or 05.04.00. Otherwise nothing is called and there is no GPU. |
| FihApr.StrLen | drivers/fih/fih_apr.c:49 | The string length is the index of the first NUL, or the buffer length if there is none. |
| FihApr.StrLenOfPrefix | drivers/fih/fih_apr.c:49 | Any position preceded only by non-NUL bytes and holding a NUL (or the end) is the string length. |
| FihApr.CopiedPrefix | drivers/fih/fih_apr.c:41-49 | The string in the copied bytes laid over the stack buffer reaches at least as far as the user's string. It is exactly as long when a NUL ends the user's bytes or follows them. |
| FihApr.StoredString | drivers/fih/fih_apr.c:48-50 | The stored string starts with the user's string cut to 15 bytes. It is exactly that when the user's bytes contain a NUL or fill 15 bytes. |
| FihApr.WritePon | drivers/fih/fih_apr.c:35-53 | A short user buffer gives -EFAULT and leaves the buffer unchanged. Otherwise the write returns the count clamped to 16, and the buffer ends NUL-terminated at index 15 and zero-padded. Its string begins with the user's string cut to 15 bytes. |
| FihApr.WritePonIntended | drivers/fih/fih_apr.c:35-53 | With the stack buffer cleared, the stored string is exactly the user's string, cut at its first NUL and at 15 bytes. |
| FihApr.StaleStackBytesLeak | drivers/fih/fih_apr.c:38-49 | Writing "1" (one byte, no NUL) over a stack buffer of 'A's stores "1" followed by fourteen 'A's. The cleared version stores "1". |
| FihApr.ProcShow | drivers/fih/fih_apr.c:55-59 | A read shows exactly the buffer's string (its bytes up to the first NUL) followed by one newline. For a terminated buffer, that is shorter than the buffer plus one. |
| FihApr.WriteThenShow | drivers/fih/fih_apr.c:35-59 | After a cleared-buffer write, the entry shows the written string, cut to 15 bytes, followed by a newline. |
| FihApr.Strlcpy | drivers/fih/fih_apr.c:119 | The result is NUL-terminated and holds the source string cut to 15 bytes. Bytes after the terminator are left as they were. |
| FihApr.PadTruncated | drivers/fih/fih_apr.c:48-50 | The buffer is 16 bytes, NUL at index 15, and zero-padded after a string equal to the input cut to 15 bytes. |
| FihApr.Initial | drivers/fih/fih_apr.c:16-19 | The four zero-initialised static buffers each hold a terminated string. |
| FihApr.LoadProperty | drivers/fih/fih_apr.c:115-121 | An absent property leaves the buffer unchanged. A present one leaves a terminated string equal to the property cut to 15 bytes. |
| FihApr.LoadProperties | drivers/fih/fih_apr.c:110-149 | Each property loads into its own buffer only. All buffers stay terminated, and the result is 0. |
| FihApr.OnlyPowerOnCauseWritable | drivers/fih/fih_apr.c:66-108 | Of the three proc entries only `poweroncause` has a write operation, and it shows the power-on buffer. No entry shows the ramdump status. |
| FihApr.ProcWrite | drivers/fih/fih_apr.c:35-72 | A write through the power-on entry, over whatever the stack buffer holds, changes only the power-on buffer, and every buffer stays terminated. A short user buffer gives -EFAULT and changes nothing. Otherwise the result is the count clamped to 16, and the stored string begins with the user's string cut to 15 bytes. Stale stack bytes may follow it. |
| FihApr.ProcWriteIntended | drivers/fih/fih_apr.c:35-72 | The same write with the copy buffer cleared. The stored string is then exactly the user's string cut to 15 bytes, with the same result and the same -EFAULT case. |
| FihApr.ProcWriteAgreesWithIntended | drivers/fih/fih_apr.c:38-49 | The as-written and the cleared write return the same result. The cleared write's string is a prefix of the as-written one, and the two agree when the stack buffer holds zeros. |
| FihApr.Probe | drivers/fih/fih_apr.c:172-196 | Without a device-tree node the probe returns -ENOTSUPP, changes nothing and creates no entries. Otherwise it loads the properties, creates the three entries and returns 0. |

## Left out

- Locks, the wait queue and concurrency are not modelled. This covers the read mutex, the `irq_enabled` spinlock and interleavings of the interrupt handler with the other operations. The handler is assumed to run only as the event that completes a wait in the read loop.
- Delays (`usleep_range`, `msleep`, `udelay`), logging, wake locks, `irq_set_irq_wake`, `pm_wakeup_event` and `device_init_wakeup` are not modelled. None of them changes a result.
- GPIO output lines are assumed to read back the level they were last driven to. So the eSE read-back checks in `nqx_ese_pwr` always pass when the line is valid, and the "-1 after a failed read-back" paths are unreachable in the model.
- `gpio_is_valid` is taken as a parameter (`Pins.firmValid`, `Pins.eseValid`). The eSE GPIO number is never assigned in the live probe, so it stays zero. The `ARCH_NR_GPIOS` bound is not modelled. The level the never-requested eSE line reads at probe is an input (`eseLevel`).
- NfcIo.Read: the wait is driven by a finite sequence of observations. When the sequence runs out, the read is reported as still waiting (`ret` None), so reads that block forever are represented only by their finite prefixes.
- NfcIo.Read: the bytes transferred are not modelled, only the counts and the error decisions. `memset` of the buffer and the contents of the user copy are left out.
- NfcIo.Write: the transmitted bytes are not modelled, only the counts. The `memdup_user` result is an input (0 or an error).
- The `#if 0` and `NFC_KERNEL_BU` blocks are not modelled, and neither is the disabled `nfc_parse_dt`. These cover clock selection, the eSE and clkreq lines in probe, the reboot notifier, and the unused `nfcc_hw_check` variant that talks to the chip. The live `nfcc_hw_check` stores a fixed chip identity (chip type, ROM version, firmware major and minor) and returns 0. The model folds the call into the successful probe and takes the stored identity word as the input `chipInfo`, because the `nqx_uinfo` union layout is not part of this model.
- NfcProbe.ProbeWith: sysfs group and link creation are a single input, and the sysfs attribute files are not modelled. The sysfs group removal at `err_create_link` is not tracked as a resource, because probe reaches that label with the group possibly not created.
- The `nqx_uinfo` bit layout and the numeric ioctl opcodes are not modelled. Commands are a datatype, and the chip-info word is an opaque `unsigned int`.
- `nqx_remove`, the module init/exit, the i2c and device-tree match tables, and the sysfs show function are not modelled.
- Adreno.LoadGpu: `a5xx_gpu_init`, `msm_gpu_hw_init`, the runtime PM calls and the locking around hardware init are inputs or left out. The GPU is identified by an opaque number. The component bind/unbind plumbing other than the chip-ID decode is not modelled.
- FihApr: `fih_apr_marker` (wall-clock logging), the delayed `dump_poweron_cause` timer with its `simple_strtoul` parsing, and the module remove and init are not modelled.
- FihApr.OnlyPowerOnCauseWritable: only the presence of a write operation is modelled. The proc entries are created with mode 0, which proc turns into read-only permission bits. The VFS permission check that therefore refuses most writers is not modelled.
- FihApr.WritePon: the real `strlen` of an unterminated 16-byte stack buffer reads past its end. The model stops at the buffer's end. This does not change the stored string, which is cut to 15 bytes.

## Findings

| source | as written | input that shows it | evidently intended | confidence | as-written member | corrected member |
|---|---|---|---|---|---|---|
| drivers/nfc/nq-nci.c:1033-1036 | When the VEN, IRQ or firmware GPIO is not provided, probe jumps to the unwind without setting its result, which is still 0. Probe releases everything and reports success with no device registered. | A device-tree node without `nxp,ven-gpio` and all allocations succeeding. Probe returns 0 and releases the read buffer, the session and the platform data. | A missing required line is reported as an error, so a zero result means the device was registered. | not executed | NfcProbe.AsWrittenNoVenExample | NfcProbe.IntendedZeroMeansRegistered |
| drivers/fih/fih_apr.c:38-49 | The write handler copies up to 16 user bytes into an uninitialised stack buffer, then formats it with `%s`. A write without a NUL (such as `echo -n 1`) leaves earlier stack bytes after the user's bytes in the stored string. | A one-byte write "1" over a stack buffer holding 'A's stores "1AAAAAAAAAAAAAA". | The stored string is exactly what the user wrote, cut to 15 bytes. | not executed | FihApr.StaleStackBytesLeak | FihApr.WritePonIntended |

=== FILE: adreno.dfy ===
/**
 * Adreno GPU identification: the revision table with wildcard matching, the
 * split of the device tree's 32-bit chip ID into a revision, and the
 * decisions of `adreno_load_gpu`. The GPU's own initialisation and hardware
 * bring-up are inputs.
 */
module Adreno {
  import opened Kernel

  /** A table field equal to `ANY_ID` matches every value. */
  const ANY_ID: bv8 := 0xff

  const SZ_1M: nat := 0x10_0000

  /** `struct adreno_rev`. */
  datatype Rev = Rev(core: bv8, major: bv8, minor: bv8, patchid: bv8)

  /** One entry of the GPU table (`struct adreno_info`, less the init hook). */
  datatype Info = Info(rev: Rev, revn: nat, name: string, pm4fw: string, pfpfw: string, gmem: nat)

  /** `gpulist`: both entries use the a5xx init hook. */
  const GpuList: seq<Info> := [
    Info(Rev(5, 3, 0, ANY_ID), 530, "A530", "a530_pm4.fw", "a530_pfp.fw", SZ_1M),
    Info(Rev(5, 4, 0, ANY_ID), 540, "A540", "a530_pm4.fw", "a530_pfp.fw", SZ_1M)
  ]

  /** `_rev_match`. */
  predicate RevMatch(entry: bv8, id: bv8)
  {
    entry == ANY_ID || entry == id
  }

  /** All four fields of a table entry match the revision. */
  predicate Matches(info: Info, rev: Rev)
  {
    && RevMatch(info.rev.core, rev.core)
    && RevMatch(info.rev.major, rev.major)
    && RevMatch(info.rev.minor, rev.minor)
    && RevMatch(info.rev.patchid, rev.patchid)
  }

  /** The index of the first entry of `table[i..]` that matches `rev`. */
  function FirstMatchFrom(table: seq<Info>, rev: Rev, i: nat): (r: Option<nat>)
    requires i <= |table|
    ensures r.Some? ==> i <= r.value < |table| && Matches(table[r.value], rev)
    ensures r.Some? ==> forall j :: i <= j < r.value ==> !Matches(table[j], rev)
    ensures r.None? <==> forall j :: i <= j < |table| ==> !Matches(table[j], rev)
    decreases |table| - i
  {
    if i == |table| then None
    else if Matches(table[i], rev) then Some(i)
    else FirstMatchFrom(table, rev, i + 1)
  }

  /** `adreno_info`: the first matching entry of the table, or NULL. */
  function Lookup(table: seq<Info>, rev: Rev): (r: Option<Info>)
    ensures r.Some? ==> exists k :: 0 <= k < |table| && r.value == table[k] && Matches(table[k], rev) &&
                          forall j :: 0 <= j < k ==> !Matches(table[j], rev)
    ensures r.None? <==> forall j :: 0 <= j < |table| ==> !Matches(table[j], rev)
  {
    match FirstMatchFrom(table, rev, 0)
    case Some(k) => Some(table[k])
    case None => None
  }

  /** `adreno_info` over the driver's table. */
  function AdrenoInfo(rev: Rev): (r: Option<Info>)
    ensures r.Some? ==> r.value in GpuList && Matches(r.value, rev)
    ensures r.None? <==> forall j :: 0 <= j < |GpuList| ==> !Matches(GpuList[j], rev)
  {
    Lookup(GpuList, rev)
  }

  /** Every 5.3.0.x is an A530 and every 5.4.0.x an A540, whatever the patch ID. */
  lemma KnownRevisions(p: bv8)
    ensures AdrenoInfo(Rev(5, 3, 0, p)) == Some(GpuList[0]) && GpuList[0].revn == 530
    ensures AdrenoInfo(Rev(5, 4, 0, p)) == Some(GpuList[1]) && GpuList[1].revn == 540
  {
    assert Matches(GpuList[0], Rev(5, 3, 0, p));
    assert Matches(GpuList[1], Rev(5, 4, 0, p));
  }

  /** The table knows exactly the revisions 5.3.0.x and 5.4.0.x. */
  lemma KnownIff(rev: Rev)
    ensures AdrenoInfo(rev).Some? <==> rev.core == 5 && (rev.major == 3 || rev.major == 4) && rev.minor == 0
  {
    if rev.core == 5 && (rev.major == 3 || rev.major == 4) && rev.minor == 0 {
      KnownRevisions(rev.patchid);
    }
  }

  /** Both entries wildcard the patch ID, so the lookup never depends on it. */
  lemma LookupIgnoresPatchId(core: bv8, major: bv8, minor: bv8, p: bv8, q: bv8)
    ensures AdrenoInfo(Rev(core, major, minor, p)) == AdrenoInfo(Rev(core, major, minor, q))
  {
    KnownIff(Rev(core, major, minor, p));
    KnownIff(Rev(core, major, minor, q));
    if core == 5 && (major == 3 || major == 4) && minor == 0 {
      KnownRevisions(p);
      KnownRevisions(q);
    }
  }

  /** No revision matches both entries, so their order does not matter. */
  lemma EntriesDisjoint(rev: Rev)
    ensures !(Matches(GpuList[0], rev) && Matches(GpuList[1], rev))
    ensures Lookup(GpuList, rev) == Lookup([GpuList[1], GpuList[0]], rev)
  {
    var swapped := [GpuList[1], GpuList[0]];
    if Matches(GpuList[0], rev) {
      assert Lookup(swapped, rev) == Some(swapped[1]) by {
        assert !Matches(swapped[0], rev);
      }
    } else if Matches(GpuList[1], rev) {
      assert Lookup(swapped, rev) == Some(swapped[0]);
    }
  }

  /** The revision encoded in a 32-bit chip ID, one byte per field from the top. */
  function DecodeChipId(val: bv32): (r: Rev)
    ensures ((r.core as bv32) << 24) | ((r.major as bv32) << 16) | ((r.minor as bv32) << 8) | (r.patchid as bv32) == val
  {
    Rev(((val >> 24) & 0xff) as bv8, ((val >> 16) & 0xff) as bv8, ((val >> 8) & 0xff) as bv8, (val & 0xff) as bv8)
  }

  /** The chip ID of a revision. */
  function EncodeRev(r: Rev): (val: bv32)
    ensures val >> 24 == r.core as bv32
  {
    ((r.core as bv32) << 24) | ((r.major as bv32) << 16) | ((r.minor as bv32) << 8) | (r.patchid as bv32)
  }

  /** Encoding a decoded chip ID gives it back, and decoding an encoded revision too. */
  lemma ChipIdRoundTrip(val: bv32, r: Rev)
    ensures EncodeRev(DecodeChipId(val)) == val
    ensures DecodeChipId(EncodeRev(r)) == r
  {
  }

  /** `adreno_bind`'s outcome: the decoded revision, or the property read error. */
  datatype Bind = Bound(rev: Rev) | BindFailed(err: int)

  /** `adreno_bind`: read the chip ID property (`readErr` its result) and decode it. */
  function AdrenoBind(readErr: int, val: bv32): (b: Bind)
    ensures readErr != 0 <==> b == BindFailed(readErr)
    ensures readErr == 0 ==> b.Bound? && EncodeRev(b.rev) == val
  {
    if readErr != 0 then BindFailed(readErr) else Bound(DecodeChipId(val))
  }

  /** Chip IDs 0x050300xx bind to A530 and 0x050400xx to A540. */
  lemma ChipIdSelectsEntry(val: bv32)
    ensures val >> 8 == 0x05_0300 ==> AdrenoInfo(DecodeChipId(val)) == Some(GpuList[0])
    ensures val >> 8 == 0x05_0400 ==> AdrenoInfo(DecodeChipId(val)) == Some(GpuList[1])
  {
    var r := DecodeChipId(val);
    KnownRevisions(r.patchid);
    if val >> 8 == 0x05_0300 || val >> 8 == 0x05_0400 {
      assert (val >> 24) & 0xff == 5;
      assert (val >> 8) & 0xff == 0;
    }
  }

  /** What the GPU's init hook returns: a GPU, an error pointer, or NULL. */
  datatype InitResult = InitGpu(gpu: nat) | InitError(err: int) | InitNull

  /** `adreno_load_gpu`'s outcome and the hooks it called. */
  datatype Load = Load(gpu: Option<nat>, initCalled: bool, hwInitCalled: bool, destroyed: bool)

  /**
   * `adreno_load_gpu`. `pdev` is the bound revision, None when no GPU device
   * is bound; `init` is what the table entry's init hook returns and
   * `hwInit` the result of msm_gpu_hw_init.
   */
  function LoadGpu(pdev: Option<Rev>, init: InitResult, hwInit: int): (l: Load)
    ensures pdev.None? ==> l == Load(None, false, false, false)
    ensures pdev.Some? && AdrenoInfo(pdev.value).None? ==> l == Load(None, false, false, false)
    ensures l.initCalled <==> pdev.Some? && AdrenoInfo(pdev.value).Some?
    ensures l.hwInitCalled <==> l.initCalled && init.InitGpu?
    ensures l.destroyed <==> l.hwInitCalled && hwInit != 0
    ensures l.gpu.Some? <==> l.hwInitCalled && hwInit == 0
    ensures l.gpu.Some? ==> init == InitGpu(l.gpu.value)
  {
    if pdev.None? then Load(None, false, false, false)
    else if AdrenoInfo(pdev.value).None? then Load(None, false, false, false)
    else match init
      case InitError(_) => Load(None, true, false, false)
      case InitNull => Load(None, true, false, false)
      case InitGpu(g) =>
        if hwInit != 0 then Load(None, true, true, true)
        else Load(Some(g), true, true, false)
  }

  /**
   * Bind followed by load: the GPU's init hook runs exactly when the chip ID
   * was read and is 0x050300xx or 0x050400xx; otherwise nothing is called
   * and no GPU is returned.
   */
  lemma BindThenLoad(readErr: int, val: bv32, init: InitResult, hwInit: int)
    ensures var b := AdrenoBind(readErr, val);
            var l := LoadGpu(if b.Bound? then Some(b.rev) else None, init, hwInit);
            && (l.initCalled <==> readErr == 0 && (val >> 8 == 0x05_0300 || val >> 8 == 0x05_0400))
            && (!l.initCalled ==> l == Load(None, false, false, false))
  {
    var r := DecodeChipId(val);
    KnownIff(r);
    ChipIdSelectsEntry(val);
    ChipIdRoundTrip(val, r);
    if r.core == 5 && (r.major == 3 || r.major == 4) && r.minor == 0 {
      assert val >> 8 == ((r.core as bv32) << 16) | ((r.major as bv32) << 8) | (r.minor as bv32);
    }
  }
}

=== FILE: fih_apr.dfy ===
/**
 * The power-on/off cause buffers of the APR module: four 16-byte C strings
 * loaded from device-tree properties at probe time, shown through proc
 * entries, and — for the power-on cause only — overwritten by a write to
 * its proc entry.
 *
 * Characters are bytes; a buffer's string is its bytes before the first NUL.
 */
module FihApr {
  import opened Kernel

  /** The size of each cause buffer. */
  const BUF_SIZE: nat := 16

  const NEWLINE: u8 := 10

  /** The length of the C string in `b`: the bytes before the first NUL, or all of `b`. */
  function StrLen(b: seq<u8>): (n: nat)
    ensures n <= |b|
    ensures forall i :: 0 <= i < n ==> b[i] != 0
    ensures n < |b| ==> b[n] == 0
  {
    if |b| == 0 || b[0] == 0 then 0 else 1 + StrLen(b[1..])
  }

  /** The C string held in `b`. */
  function CStr(b: seq<u8>): (s: seq<u8>)
    ensures |s| <= |b| && forall i :: 0 <= i < |s| ==> s[i] == b[i] && s[i] != 0
  {
    b[..StrLen(b)]
  }

  /** The string length is determined by the first NUL, whatever follows it. */
  lemma StrLenOfPrefix(b: seq<u8>, n: nat)
    requires n <= |b|
    requires forall i :: 0 <= i < n ==> b[i] != 0
    requires n == |b| || b[n] == 0
    ensures StrLen(b) == n
  {
  }

  /** `b` holds a NUL within its bounds. */
  predicate Terminated(b: seq<u8>)
  {
    StrLen(b) < |b|
  }

  /** Every byte from the terminator on is NUL. */
  predicate ZeroPadded(b: seq<u8>)
  {
    forall i :: StrLen(b) <= i < |b| ==> b[i] == 0
  }

  function Zeros(n: nat): (z: seq<u8>)
    ensures |z| == n && forall i :: 0 <= i < n ==> z[i] == 0
  {
    seq(n, _ => 0)
  }

  /** `s`, cut to at most `BUF_SIZE - 1` bytes and padded with NULs to `BUF_SIZE`. */
  function PadTruncated(s: seq<u8>): (b: seq<u8>)
    requires forall i :: 0 <= i < |s| ==> s[i] != 0
    ensures |b| == BUF_SIZE && b[BUF_SIZE - 1] == 0
    ensures CStr(b) == s[..Min(|s|, BUF_SIZE - 1)]
    ensures Terminated(b) && ZeroPadded(b)
  {
    var n := Min(|s|, BUF_SIZE - 1);
    var b := s[..n] + Zeros(BUF_SIZE - n);
    StrLenOfPrefix(b, n);
    b
  }

  /**
   * The string in `user[..size]` laid over `fill`: it reaches at least as far
   * as the user's string, and exactly as far when a NUL ends it — the user's
   * own, or the fill's first byte after the copied ones.
   */
  lemma CopiedPrefix(user: seq<u8>, size: nat, fill: seq<u8>)
    requires size <= |user| && size <= |fill|
    ensures var tmp := user[..size] + fill[size..];
            && |tmp| == |fill|
            && (forall i :: 0 <= i < size ==> tmp[i] == user[i])
            && StrLen(user[..size]) <= StrLen(tmp)
            && (StrLen(user[..size]) < size ==> StrLen(tmp) == StrLen(user[..size]))
            && (size < |fill| && fill[size] == 0 ==> StrLen(tmp) == StrLen(user[..size]))
  {
    var tmp := user[..size] + fill[size..];
    var k := StrLen(user[..size]);
    assert forall i :: 0 <= i < k ==> tmp[i] == user[..size][i];
    if k < size {
      StrLenOfPrefix(tmp, k);
    } else if size < |fill| && fill[size] == 0 {
      StrLenOfPrefix(tmp, size);
    }
  }

  /**
   * What the write stores: the string of the copied bytes laid over the
   * stack buffer, cut to 15 bytes. It starts with the user's string, and is
   * exactly that when the user's bytes end in a NUL or fill the string.
   */
  lemma StoredString(user: seq<u8>, size: nat, stack: seq<u8>)
    requires size <= |user| && size <= BUF_SIZE == |stack|
    ensures var b := PadTruncated(CStr(user[..size] + stack[size..]));
            var k := Min(StrLen(user[..size]), BUF_SIZE - 1);
            && k <= StrLen(b) && b[..k] == user[..k]
            && (StrLen(user[..size]) < size || size >= BUF_SIZE - 1 ==> CStr(b) == user[..k])
  {
    CopiedPrefix(user, size, stack);
  }

  /** The copy of a write of `count` bytes succeeds: the clamped count is readable. */
  predicate Copies(user: seq<u8>, count: nat)
  {
    Min(count, BUF_SIZE) <= |user|
  }

  /**
   * The string a write of `count` bytes from `user` is meant to store: the
   * copied bytes up to their first NUL, cut to 15 bytes.
   */
  function UserString(user: seq<u8>, count: nat): (s: seq<u8>)
    ensures |s| < BUF_SIZE && forall i :: 0 <= i < |s| ==> s[i] != 0
  {
    var copied := user[..Min(Min(count, BUF_SIZE), |user|)];
    copied[..Min(StrLen(copied), BUF_SIZE - 1)]
  }

  predicate IsPrefix(a: seq<u8>, b: seq<u8>)
  {
    |a| <= |b| && b[..|a|] == a
  }

  /** The outcome of a write to the power-on cause entry. */
  datatype Written = Written(pon: seq<u8>, ret: int)

  /**
   * `fih_apr_proc_write_pon`. `user` holds the bytes readable at the user
   * pointer (the copy faults when fewer than the clamped count are readable)
   * and `stack` the prior contents of the uninitialised 16-byte stack buffer
   * the bytes are copied into, which the source never clears.
   */
  function WritePon(pon: seq<u8>, user: seq<u8>, count: nat, stack: seq<u8>): (w: Written)
    requires |pon| == BUF_SIZE && |stack| == BUF_SIZE
    ensures |w.pon| == BUF_SIZE
    // a failing copy leaves the buffer as it was
    ensures !Copies(user, count) <==> w.ret == -EFAULT
    ensures !Copies(user, count) ==> w.pon == pon
    // otherwise the clamped count is returned and the buffer holds a short,
    // zero-padded string
    ensures Copies(user, count) ==> w.ret == Min(count, BUF_SIZE)
    ensures Copies(user, count) ==>
              |w.pon| == BUF_SIZE && w.pon[BUF_SIZE - 1] == 0 && Terminated(w.pon) && ZeroPadded(w.pon)
    // the string starts with the user's string
    ensures Copies(user, count) ==> IsPrefix(UserString(user, count), CStr(w.pon))
    // and is exactly that when the user's bytes end in a NUL or fill the string
    ensures Copies(user, count) &&
            (StrLen(user[..Min(count, BUF_SIZE)]) < Min(count, BUF_SIZE) || count >= BUF_SIZE - 1) ==>
              CStr(w.pon) == UserString(user, count)
  {
    var size := Min(count, BUF_SIZE);
    if |user| < size then Written(pon, -EFAULT)
    else
      StoredString(user, size, stack);
      Written(PadTruncated(CStr(user[..size] + stack[size..])), size)
  }

  /** `tmp` cleared before the copy: the buffer holds exactly the user's string. */
  function WritePonIntended(pon: seq<u8>, user: seq<u8>, count: nat): (w: Written)
    requires |pon| == BUF_SIZE
    ensures |w.pon| == BUF_SIZE
    ensures !Copies(user, count) <==> w.ret == -EFAULT
    ensures !Copies(user, count) ==> w.pon == pon
    ensures Copies(user, count) ==> w.ret == Min(count, BUF_SIZE) && Terminated(w.pon) && ZeroPadded(w.pon)
    ensures Copies(user, count) ==> CStr(w.pon) == UserString(user, count)
  {
    var size := Min(count, BUF_SIZE);
    if |user| < size then Written(pon, -EFAULT)
    else
      var tmp := user[..size] + Zeros(BUF_SIZE - size);
      CopiedPrefix(user, size, Zeros(BUF_SIZE));
      assert Zeros(BUF_SIZE)[size..] == Zeros(BUF_SIZE - size);
      Written(PadTruncated(CStr(tmp)), size)
  }

  /**
   * As written, a short write without a NUL — what `echo 1 >` produces — is
   * completed with whatever the stack buffer held: here "1" followed by
   * fourteen 'A's instead of "1".
   */
  lemma StaleStackBytesLeak()
    ensures var w := WritePon(Zeros(BUF_SIZE), [0x31], 1, seq(BUF_SIZE, _ => 0x41));
            w.ret == 1 && CStr(w.pon) == [0x31] + seq(BUF_SIZE - 2, _ => 0x41) && CStr(w.pon) != [0x31]
    ensures var w := WritePonIntended(Zeros(BUF_SIZE), [0x31], 1);
            w.ret == 1 && CStr(w.pon) == [0x31]
  {
    var stack: seq<u8> := seq(BUF_SIZE, _ => 0x41);
    var tmp := [0x31] + stack[1..];
    StrLenOfPrefix(tmp, BUF_SIZE);
    StrLenOfPrefix([0x31], 1);
    var w := WritePon(Zeros(BUF_SIZE), [0x31], 1, stack);
    assert w.pon == tmp[..BUF_SIZE - 1] + Zeros(1);
    StrLenOfPrefix(w.pon, BUF_SIZE - 1);
    assert CStr(w.pon) == tmp[..BUF_SIZE - 1];
  }

  /** What reading a proc entry shows: the buffer's string and a newline. */
  function ProcShow(buf: seq<u8>): (out: seq<u8>)
    ensures |out| == StrLen(buf) + 1 && out[|out| - 1] == NEWLINE
    ensures forall i :: 0 <= i < StrLen(buf) ==> out[i] == buf[i]
    ensures Terminated(buf) ==> |out| < |buf| + 1
  {
    CStr(buf) + [NEWLINE]
  }

  /** Writing a string to the power-on cause entry and reading it back shows that string. */
  lemma WriteThenShow(pon: seq<u8>, user: seq<u8>, count: nat)
    requires |pon| == BUF_SIZE && Copies(user, count)
    ensures ProcShow(WritePonIntended(pon, user, count).pon) == UserString(user, count) + [NEWLINE]
  {
  }

  /**
   * `strlcpy(dst, src, 16)`: the first at most 15 bytes of `src`'s string,
   * then a NUL; the bytes after that NUL are left as they were.
   */
  function Strlcpy(dst: seq<u8>, src: seq<u8>): (r: seq<u8>)
    requires |dst| == BUF_SIZE
    ensures |r| == BUF_SIZE && Terminated(r)
    ensures CStr(r) == CStr(src)[..Min(StrLen(src), BUF_SIZE - 1)]
    ensures forall i :: Min(StrLen(src), BUF_SIZE - 1) < i < BUF_SIZE ==> r[i] == dst[i]
  {
    var n := Min(StrLen(src), BUF_SIZE - 1);
    var r := src[..n] + [0] + dst[n + 1..];
    StrLenOfPrefix(r, n);
    r
  }

  /** The four cause buffers. */
  datatype Apr = Apr(pon: seq<u8>, poff: seq<u8>, rere: seq<u8>, ramp: seq<u8>)

  /** Every buffer has its size and holds a terminated string. */
  predicate Valid(a: Apr)
  {
    && |a.pon| == BUF_SIZE && |a.poff| == BUF_SIZE && |a.rere| == BUF_SIZE && |a.ramp| == BUF_SIZE
    && Terminated(a.pon) && Terminated(a.poff) && Terminated(a.rere) && Terminated(a.ramp)
  }

  /** The module's static buffers before probe: all zero. */
  function Initial(): (a: Apr)
    ensures Valid(a)
  {
    StrLenOfPrefix(Zeros(BUF_SIZE), 0);
    Apr(Zeros(BUF_SIZE), Zeros(BUF_SIZE), Zeros(BUF_SIZE), Zeros(BUF_SIZE))
  }

  /** One buffer's load from its property: copied when present, untouched when absent. */
  function LoadProperty(buf: seq<u8>, prop: Option<seq<u8>>): (r: seq<u8>)
    requires |buf| == BUF_SIZE
    ensures |r| == BUF_SIZE
    ensures prop.None? ==> r == buf
    ensures prop.Some? ==> Terminated(r) && CStr(r) == CStr(prop.value)[..Min(StrLen(prop.value), BUF_SIZE - 1)]
    ensures Terminated(buf) ==> Terminated(r)
  {
    match prop
    case None => buf
    case Some(p) => Strlcpy(buf, p)
  }

  /** The four device-tree properties the module reads; None when absent. */
  datatype Props = Props(
    poweroncause: Option<seq<u8>>,
    poweroffcause: Option<seq<u8>>,
    rebootreason: Option<seq<u8>>,
    ramdumpstatus: Option<seq<u8>>)

  /**
   * `fih_apr_property`: each property present is copied into its own buffer
   * with strlcpy; the result is always 0.
   */
  function LoadProperties(a: Apr, p: Props): (r: (Apr, int))
    requires Valid(a)
    ensures Valid(r.0) && r.1 == 0
    ensures r.0.pon == LoadProperty(a.pon, p.poweroncause)
    ensures r.0.poff == LoadProperty(a.poff, p.poweroffcause)
    ensures r.0.rere == LoadProperty(a.rere, p.rebootreason)
    ensures r.0.ramp == LoadProperty(a.ramp, p.ramdumpstatus)
  {
    (Apr(LoadProperty(a.pon, p.poweroncause),
         LoadProperty(a.poff, p.poweroffcause),
         LoadProperty(a.rere, p.rebootreason),
         LoadProperty(a.ramp, p.ramdumpstatus)), 0)
  }

  /** The proc entries and the buffer each shows. */
  datatype Buffer = Pon | Poff | Rere | Ramp
  datatype ProcEntry = ProcEntry(name: string, shows: Buffer, writable: bool)

  /** The three entries probe creates; only the power-on cause has a write operation. */
  const ProcEntries: seq<ProcEntry> := [
    ProcEntry("poweroncause", Pon, true),
    ProcEntry("poweroffcause", Poff, false),
    ProcEntry("rebootreason", Rere, false)
  ]

  lemma OnlyPowerOnCauseWritable()
    ensures forall e :: e in ProcEntries ==> (e.writable <==> e.name == "poweroncause")
    ensures forall e :: e in ProcEntries ==> (e.writable <==> e.shows == Pon)
    ensures forall e :: e in ProcEntries ==> e.shows != Ramp
  {
  }

  /**
   * A write through the power-on cause entry, as written: only that buffer
   * changes, keeping a terminated string that starts with the user's string
   * (and may continue with the stale `stack` bytes).
   */
  function ProcWrite(a: Apr, user: seq<u8>, count: nat, stack: seq<u8>): (r: (Apr, int))
    requires Valid(a) && |stack| == BUF_SIZE
    ensures Valid(r.0)
    ensures r.0 == a.(pon := r.0.pon)
    ensures !Copies(user, count) <==> r.1 == -EFAULT
    ensures !Copies(user, count) ==> r.0 == a
    ensures Copies(user, count) ==> r.1 == Min(count, BUF_SIZE) && IsPrefix(UserString(user, count), CStr(r.0.pon))
  {
    var w := WritePon(a.pon, user, count, stack);
    (a.(pon := w.pon), w.ret)
  }

  /**
   * The same write with the copy buffer cleared as intended: the buffer then
   * holds exactly the user's string.
   */
  function ProcWriteIntended(a: Apr, user: seq<u8>, count: nat): (r: (Apr, int))
    requires Valid(a)
    ensures Valid(r.0)
    ensures r.0 == a.(pon := r.0.pon)
    ensures !Copies(user, count) <==> r.1 == -EFAULT
    ensures !Copies(user, count) ==> r.0 == a
    ensures Copies(user, count) ==> r.1 == Min(count, BUF_SIZE) && CStr(r.0.pon) == UserString(user, count)
  {
    var w := WritePonIntended(a.pon, user, count);
    (a.(pon := w.pon), w.ret)
  }

  /** The two writes differ only in what follows the user's string. */
  lemma ProcWriteAgreesWithIntended(a: Apr, user: seq<u8>, count: nat, stack: seq<u8>)
    requires Valid(a) && |stack| == BUF_SIZE
    ensures ProcWrite(a, user, count, stack).1 == ProcWriteIntended(a, user, count).1
    ensures IsPrefix(CStr(ProcWriteIntended(a, user, count).0.pon), CStr(ProcWrite(a, user, count, stack).0.pon))
    ensures stack == Zeros(BUF_SIZE) ==> ProcWrite(a, user, count, stack) == ProcWriteIntended(a, user, count)
  {
    if Copies(user, count) && stack == Zeros(BUF_SIZE) {
      var size := Min(count, BUF_SIZE);
      assert stack[size..] == Zeros(BUF_SIZE - size);
    }
  }

  /** The outcome of the module's probe. */
  datatype Probed = Probed(apr: Apr, ret: int, entries: seq<ProcEntry>)

  /**
   * `fih_apr_probe`: refused without a device-tree node; otherwise the
   * properties are loaded and the three proc entries created.
   */
  function Probe(a: Apr, hasNode: bool, p: Props): (r: Probed)
    requires Valid(a)
    ensures Valid(r.apr)
    ensures !hasNode <==> r.ret == -ENOTSUPP
    ensures !hasNode ==> r.apr == a && r.entries == []
    ensures hasNode ==> r.ret == 0 && r.entries == ProcEntries && r.apr == LoadProperties(a, p).0
  {
    if !hasNode then Probed(a, -ENOTSUPP, [])
    else
      var (loaded, rc) := LoadProperties(a, p);
      if rc != 0 then Probed(loaded, rc, [])
      else Probed(loaded, 0, ProcEntries)
  }
}

=== FILE: kernel.dfy ===
/**
 * Shared vocabulary of the three driver models: an optional value, the C
 * integer widths the drivers use, and the Linux error numbers they return
 * (as positive numbers; the drivers return their negation).
 */
module Kernel {

  /** A value that may be absent: a NULL pointer, a missing property. */
  datatype Option<T> = None | Some(value: T)

  const U32_LIMIT: int := 0x1_0000_0000
  const S32_LIMIT: int := 0x8000_0000

  /** An `unsigned int` / `uint32_t`. */
  type u32 = x: int | 0 <= x < U32_LIMIT

  /** An `unsigned char` / `uint8_t`. */
  type u8 = x: int | 0 <= x < 256

  /** The value an `unsigned int` takes when it is returned through an `int`. */
  function AsInt32(x: u32): (r: int)
    ensures -S32_LIMIT <= r < S32_LIMIT
    ensures r % U32_LIMIT == x
    ensures x < S32_LIMIT ==> r == x
  {
    if x < S32_LIMIT then x else x - U32_LIMIT
  }

  function Min(a: int, b: int): (m: int)
  {
    if a <= b then a else b
  }

  // Linux error numbers (include/uapi/asm-generic/errno-base.h, errno.h,
  // include/linux/errno.h).
  const EIO: int := 5
  const EAGAIN: int := 11
  const ENOMEM: int := 12
  const EFAULT: int := 14
  const EBUSY: int := 16
  const ENODEV: int := 19
  const EINVAL: int := 22
  const ENOTTY: int := 25
  const ERESTARTSYS: int := 512
  const ENOIOCTLCMD: int := 515
  const ENOTSUPP: int := 524
}

=== FILE: nfc_io.dfy ===
/**
 * The NQx data channel: the decisions of `nfc_read` (count clamping, the
 * interrupt wait loop with its retry budget, the transfer checks) and of
 * `nfc_write`.
 *
 * The blocking wait is not executed: what the driver observes while waiting
 * is an input sequence of `Wake` observations, consumed one per pass through
 * the `irq_read_retry` label. The i2c transfer and the user copies are inputs
 * too. Locks and settle delays are not modelled.
 */
module NfcIo {
  import opened Kernel
  import opened NfcState

  /** Retries granted to interrupted waits on each pass of the outer loop. */
  const READ_RETRIES: nat := 5

  /**
   * What one pass through the wait loop observes:
   * `before` the interrupt line level sampled before deciding to sleep;
   * `signalled` whether that sleep (taken only when `before` is low) ended
   * by a signal (-ERESTARTSYS) rather than by the interrupt handler;
   * `after` the level sampled once the wait result is zero.
   */
  datatype Wake = Wake(before: bool, signalled: bool, after: bool)

  /** A pass whose sleep ended by the interrupt and then found the line high. */
  predicate Completes(o: Wake)
  {
    !o.before && !o.signalled && o.after
  }

  /** How the wait loop ends, with the number of observations it used. */
  datatype Waited =
    | Ready(st: Nqx, trace: seq<Event>, used: nat)              // line seen high: go read
    | Failed(st: Nqx, trace: seq<Event>, used: nat, err: int)   // retries exhausted
    | Blocked(st: Nqx, trace: seq<Event>, used: nat)            // still waiting when the observations end

  function WaitedState(w: Waited): (st: Nqx)
  {
    match w
    case Ready(st, _, _) => st
    case Failed(st, _, _, _) => st
    case Blocked(st, _, _) => st
  }

  function WaitedTrace(w: Waited): (t: seq<Event>)
  {
    match w
    case Ready(_, t, _) => t
    case Failed(_, t, _, _) => t
    case Blocked(_, t, _) => t
  }

  /**
   * One pass from the `irq_read_retry` label with `ret` the last wait
   * result: unmask if masked, sleep if the line is low (a completed sleep
   * means the interrupt handler ran), mask again. Returns the new wait
   * result beside the effect.
   */
  function Pass(st: Nqx, o: Wake, ret: int): (p: (Effect, int))
    requires ret == 0 || ret == -ERESTARTSYS
    ensures p.1 == 0 || p.1 == -ERESTARTSYS
    ensures p.1 == (if o.before then ret else if o.signalled then -ERESTARTSYS else 0)
    ensures Explains(st, p.0.trace, p.0.st)
    ensures !p.0.st.hw.irqEnabled
    ensures p.0.st == st.(hw := p.0.st.hw, countIrq := p.0.st.countIrq)
    ensures p.0.st.hw == st.hw.(irqEnabled := false)
  {
    var u := Unmask(st);
    var wake := if o.before || o.signalled then Effect(u.st, []) else IrqHandler(u.st);
    var mask := DisableIrq(wake.st);
    ReplayAppend(st.hw, u.trace, wake.trace);
    ReplayAppend(st.hw, u.trace + wake.trace, mask.trace);
    (Effect(mask.st, u.trace + wake.trace + mask.trace),
     if o.before then ret else if o.signalled then -ERESTARTSYS else 0)
  }

  /** `w` preceded by the effect `e`, and by one more observation. */
  function Prepend(e: Effect, w: Waited): (r: Waited)
    ensures WaitedState(r) == WaitedState(w) && WaitedTrace(r) == e.trace + WaitedTrace(w)
    ensures r.used == w.used + 1
    ensures r.Ready? == w.Ready? && r.Failed? == w.Failed? && r.Blocked? == w.Blocked?
    ensures r.Failed? ==> r.err == w.err
  {
    match w
    case Ready(s, t, n) => Ready(s, e.trace + t, n + 1)
    case Failed(s, t, n, err) => Failed(s, e.trace + t, n + 1, err)
    case Blocked(s, t, n) => Blocked(s, e.trace + t, n + 1)
  }

  /**
   * The wait loop from the `irq_read_retry` label with `retry` retries left:
   * a nonzero wait result consumes a retry (or fails when none is left); a
   * zero result with the line high ends the wait; a zero result with the
   * line low is a spurious wake and restarts the outer loop, which resets
   * the budget to `READ_RETRIES`.
   */
  function WaitFrom(st: Nqx, retry: nat, ret: int, obs: seq<Wake>): (w: Waited)
    requires ret == 0 || ret == -ERESTARTSYS
    requires retry <= READ_RETRIES
    ensures w.used <= |obs|
    ensures Explains(st, WaitedTrace(w), WaitedState(w))
    ensures WaitedState(w) == st.(hw := WaitedState(w).hw, countIrq := WaitedState(w).countIrq)
    ensures w.Ready? ==> 1 <= w.used && obs[w.used - 1].after && !w.st.hw.irqEnabled
    ensures w.Failed? ==> w.err == -ERESTARTSYS && w.used >= retry + 1 && !w.st.hw.irqEnabled
    ensures w.Blocked? ==> w.used == |obs|
    decreases |obs|
  {
    if obs == [] then Blocked(st, [], 0)
    else
      var p := Pass(st, obs[0], ret);
      var e := p.0;
      if p.1 != 0 && retry == 0 then Failed(e.st, e.trace, 1, p.1)
      else if p.1 == 0 && obs[0].after then Ready(e.st, e.trace, 1)
      else
        var rest := if p.1 != 0 then WaitFrom(e.st, retry - 1, p.1, obs[1..])
                    else WaitFrom(e.st, READ_RETRIES, 0, obs[1..]);
        ReplayAppend(st.hw, e.trace, WaitedTrace(rest));
        assert rest.Ready? ==> obs[1..][rest.used - 1] == obs[rest.used];
        Prepend(e, rest)
  }

  /**
   * The wait loop drives no line: of the session, only the interrupt mask
   * and the interrupt counter can differ when it ends.
   */
  lemma {:induction false} WaitDrivesNoLine(st: Nqx, retry: nat, ret: int, obs: seq<Wake>)
    requires ret == 0 || ret == -ERESTARTSYS
    requires retry <= READ_RETRIES
    ensures MaskAndCountOnly(st, WaitedState(WaitFrom(st, retry, ret, obs)))
    decreases |obs|
  {
    if obs != [] {
      var p := Pass(st, obs[0], ret);
      if !(p.1 != 0 && retry == 0) && !(p.1 == 0 && obs[0].after) {
        var rest := if p.1 != 0 then WaitFrom(p.0.st, retry - 1, p.1, obs[1..])
                    else WaitFrom(p.0.st, READ_RETRIES, 0, obs[1..]);
        if p.1 != 0 {
          WaitDrivesNoLine(p.0.st, retry - 1, p.1, obs[1..]);
        } else {
          WaitDrivesNoLine(p.0.st, READ_RETRIES, 0, obs[1..]);
        }
        MaskAndCountOnlyTrans(st, p.0.st, WaitedState(rest));
        assert WaitedState(WaitFrom(st, retry, ret, obs)) == WaitedState(rest);
      }
    }
  }

  /** The wait loop as entered from the top of `while (1)`. */
  function WaitForIrq(st: Nqx, obs: seq<Wake>): (w: Waited)
    ensures w.used <= |obs|
    ensures Explains(st, WaitedTrace(w), WaitedState(w))
    ensures MaskAndCountOnly(st, WaitedState(w))
    ensures w.Ready? ==> 1 <= w.used && obs[w.used - 1].after && !w.st.hw.irqEnabled
    ensures w.Failed? ==> w.err == -ERESTARTSYS && w.used >= READ_RETRIES + 1
    ensures w.Blocked? ==> w.used == |obs|
  {
    WaitDrivesNoLine(st, READ_RETRIES, 0, obs);
    WaitFrom(st, READ_RETRIES, 0, obs)
  }

  /**
   * No observation the loop used is a completed wait that found the line
   * high, except the last one when the loop ends Ready.
   */
  predicate PassesIncomplete(obs: seq<Wake>, w: Waited)
  {
    forall i :: 0 <= i < |obs| && i < w.used && !(w.Ready? && i == w.used - 1) ==> !Completes(obs[i])
  }

  lemma IncompleteShift(obs: seq<Wake>, e: Effect, w: Waited)
    requires |obs| >= 1 && !Completes(obs[0])
    requires PassesIncomplete(obs[1..], w)
    ensures PassesIncomplete(obs, Prepend(e, w))
  {
    var r := Prepend(e, w);
    forall i | 0 < i < |obs| && i < r.used && !(r.Ready? && i == r.used - 1)
      ensures !Completes(obs[i])
    {
      assert obs[i] == obs[1..][i - 1];
    }
  }

  /** The loop breaks at the first completed wait that finds the line high. */
  lemma {:induction false} StopsAtFirstCompletion(st: Nqx, retry: nat, ret: int, obs: seq<Wake>)
    requires ret == 0 || ret == -ERESTARTSYS
    requires retry <= READ_RETRIES
    ensures PassesIncomplete(obs, WaitFrom(st, retry, ret, obs))
    decreases |obs|
  {
    if obs != [] {
      var p := Pass(st, obs[0], ret);
      if !(p.1 != 0 && retry == 0) && !(p.1 == 0 && obs[0].after) {
        var rest := if p.1 != 0 then WaitFrom(p.0.st, retry - 1, p.1, obs[1..])
                    else WaitFrom(p.0.st, READ_RETRIES, 0, obs[1..]);
        if p.1 != 0 {
          StopsAtFirstCompletion(p.0.st, retry - 1, p.1, obs[1..]);
        } else {
          StopsAtFirstCompletion(p.0.st, READ_RETRIES, 0, obs[1..]);
        }
        IncompleteShift(obs, p.0, rest);
        assert WaitFrom(st, retry, ret, obs) == Prepend(p.0, rest);
      }
    }
  }

  /** A first wait that completes and finds the line high ends the loop at once. */
  lemma CompletedWaitReady(st: Nqx, retry: nat, obs: seq<Wake>)
    requires retry <= READ_RETRIES
    requires |obs| >= 1 && Completes(obs[0])
    ensures WaitFrom(st, retry, 0, obs).Ready?
    ensures WaitFrom(st, retry, 0, obs).used == 1
    ensures WaitFrom(st, retry, 0, obs).st.countIrq == (st.countIrq + 1) % U32_LIMIT
  {
  }

  /**
   * The budget is reset on every pass of the outer loop: after a spurious
   * wake the outcome no longer depends on how many retries were left.
   */
  lemma SpuriousWakeResetsRetries(st: Nqx, retry: nat, obs: seq<Wake>)
    requires retry <= READ_RETRIES
    requires |obs| > 0 && !obs[0].before && !obs[0].signalled && !obs[0].after
    ensures WaitFrom(st, retry, 0, obs).used == WaitFrom(st, READ_RETRIES, 0, obs).used
    ensures WaitFrom(st, retry, 0, obs) == WaitFrom(st, READ_RETRIES, 0, obs)
  {
  }

  /** Six signals in a row with no interrupt in between exhaust the budget. */
  lemma SixSignalsFail(st: Nqx, obs: seq<Wake>)
    requires |obs| >= 6
    requires forall i :: 0 <= i < 6 ==> !obs[i].before && obs[i].signalled
    ensures WaitForIrq(st, obs).Failed?
    ensures WaitForIrq(st, obs).used == 6
  {
    Unroll(st, READ_RETRIES, 0, obs);
  }

  /**
   * Once a wait has been interrupted its error is kept until a later wait
   * completes: a pass that finds the line already high does not sleep, so
   * it consumes a retry instead of reading.
   */
  lemma InterruptedThenHighFails(st: Nqx, obs: seq<Wake>)
    requires |obs| >= 6
    requires !obs[0].before && obs[0].signalled
    requires forall i :: 1 <= i < 6 ==> obs[i].before
    ensures WaitForIrq(st, obs).Failed?
    ensures WaitForIrq(st, obs).used == 6
  {
    Unroll(st, READ_RETRIES, 0, obs);
  }

  /**
   * A pass with a nonzero carried result, whose line is high or whose sleep
   * is signalled, keeps the error and consumes a retry.
   */
  lemma {:induction false} Unroll(st: Nqx, retry: nat, ret: int, obs: seq<Wake>)
    requires ret == 0 || ret == -ERESTARTSYS
    requires retry <= READ_RETRIES && |obs| >= retry + 1
    requires ret == -ERESTARTSYS || (!obs[0].before && obs[0].signalled)
    requires forall i :: 0 <= i <= retry ==> obs[i].before || obs[i].signalled
    ensures WaitFrom(st, retry, ret, obs).Failed?
    ensures WaitFrom(st, retry, ret, obs).used == retry + 1
    decreases retry
  {
    var p := Pass(st, obs[0], ret);
    if retry > 0 {
      Unroll(p.0.st, retry - 1, -ERESTARTSYS, obs[1..]);
    }
  }

  /** Everything `nfc_read` reports. */
  datatype ReadReply = ReadReply(
    st: Nqx,
    trace: seq<Event>,
    recv: Option<nat>,   // the count handed to i2c_master_recv, if it was called
    ret: Option<int>)    // the value returned, None while still waiting

  /**
   * `nfc_read`. `hasDev` is whether the file has a session, `count` the
   * requested size, `nonblock` the O_NONBLOCK flag, `lineHigh` the
   * interrupt line at entry, `obs` what the wait observes, `received` the
   * result of i2c_master_recv and `copyOk` whether copy_to_user succeeds.
   */
  function Read(hasDev: bool, st: Nqx, count: nat, nonblock: bool, lineHigh: bool,
                obs: seq<Wake>, received: int, copyOk: bool): (r: ReadReply)
    ensures Explains(st, r.trace, r.st)
    // no line is driven: only the interrupt mask and the counter may differ
    ensures MaskAndCountOnly(st, r.st)
    ensures !hasDev ==> r == ReadReply(st, [], None, Some(-ENODEV))
    // the request is clamped to the buffer capacity
    ensures r.recv.Some? ==> r.recv.value == Min(count, MAX_BUFFER_SIZE)
    // a successful read returns no more than was asked for nor more than fits
    ensures r.ret.Some? && r.ret.value >= 0 ==> r.recv.Some? && r.ret.value == received
    ensures r.ret.Some? && r.ret.value >= 0 ==> r.ret.value <= Min(count, MAX_BUFFER_SIZE)
    // the transfer's own errors are returned unchanged; over-long transfers are I/O errors
    ensures r.recv.Some? && received < 0 ==> r.ret == Some(received)
    ensures r.recv.Some? && received > Min(count, MAX_BUFFER_SIZE) ==> r.ret == Some(-EIO)
    ensures r.recv.Some? && 0 <= received <= Min(count, MAX_BUFFER_SIZE) ==>
              r.ret == Some(if copyOk then received else -EFAULT)
    // non-blocking with no data pending: would-block, nothing touched
    ensures hasDev && !lineHigh && nonblock ==> r == ReadReply(st, [], None, Some(-EAGAIN))
    // data pending at entry: no wait, no interrupt bookkeeping
    ensures hasDev && lineHigh ==> r.st == st && r.trace == [] && (r.recv.Some? <==> st.hasKbuf)
    // a session whose read buffer is gone never transfers, and reports -ENODEV once the line is high
    ensures hasDev && !st.hasKbuf ==> r.recv.None?
    ensures hasDev && lineHigh && !st.hasKbuf ==> r.ret == Some(-ENODEV)
    // a transfer follows only a high line, at entry or after a completed wait
    ensures r.recv.Some? ==>
              hasDev && st.hasKbuf && (lineHigh || exists i :: 0 <= i < |obs| && obs[i].after)
    ensures r.ret.None? ==> hasDev && !lineHigh && !nonblock && r.recv.None?
    // a blocking read with the line low at entry ends as its wait does
    ensures hasDev && !lineHigh && !nonblock ==>
              var w := WaitForIrq(st, obs);
              && r.st == WaitedState(w) && r.trace == WaitedTrace(w)
              && (w.Failed? ==> r.recv.None? && r.ret == Some(-ERESTARTSYS))
              && (w.Blocked? ==> r.ret.None?)
              && (w.Ready? && st.hasKbuf ==> r.recv == Some(Min(count, MAX_BUFFER_SIZE)))
              && (w.Ready? && !st.hasKbuf ==> r.ret == Some(-ENODEV))
  {
    if !hasDev then ReadReply(st, [], None, Some(-ENODEV))
    else
      var n := Min(count, MAX_BUFFER_SIZE);
      if !lineHigh && nonblock then ReadReply(st, [], None, Some(-EAGAIN))
      else
        var w := if lineHigh then Ready(st, [], 0) else WaitForIrq(st, obs);
        match w
        case Failed(s, t, _, e) => ReadReply(s, t, None, Some(e))
        case Blocked(s, t, _) => ReadReply(s, t, None, None)
        case Ready(s, t, _) =>
          if !s.hasKbuf then ReadReply(s, t, None, Some(-ENODEV))
          else if received < 0 then ReadReply(s, t, Some(n), Some(received))
          else if received > n then ReadReply(s, t, Some(n), Some(-EIO))
          else if !copyOk then ReadReply(s, t, Some(n), Some(-EFAULT))
          else ReadReply(s, t, Some(n), Some(received))
  }

  /**
   * A blocking read that finds no data, sleeps, and is woken by the
   * interrupt with the line high goes on to the transfer.
   */
  lemma ReadAfterCompletedWait(st: Nqx, count: nat, obs: seq<Wake>, received: int, copyOk: bool)
    requires st.hasKbuf && |obs| >= 1 && Completes(obs[0])
    ensures var r := Read(true, st, count, false, false, obs, received, copyOk);
            && r.recv == Some(Min(count, MAX_BUFFER_SIZE))
            && r.st.countIrq == (st.countIrq + 1) % U32_LIMIT
            && (0 <= received <= Min(count, MAX_BUFFER_SIZE) && copyOk ==> r.ret == Some(received))
  {
    CompletedWaitReady(st, READ_RETRIES, obs);
  }

  /**
   * A blocking read whose first six waits are all ended by signals, with no
   * interrupt in between, returns -ERESTARTSYS without a transfer.
   */
  lemma ReadSixSignalsFails(st: Nqx, count: nat, obs: seq<Wake>, received: int, copyOk: bool)
    requires |obs| >= 6
    requires forall i :: 0 <= i < 6 ==> !obs[i].before && obs[i].signalled
    ensures var r := Read(true, st, count, false, false, obs, received, copyOk);
            r.recv.None? && r.ret == Some(-ERESTARTSYS)
  {
    SixSignalsFail(st, obs);
  }

  /**
   * A completed wait that finds the line low sends the read round the outer
   * loop again; a second wait that completes with the line high then leads
   * to the transfer.
   */
  lemma ReadAfterSpuriousWake(st: Nqx, count: nat, obs: seq<Wake>, received: int, copyOk: bool)
    requires st.hasKbuf && |obs| >= 2
    requires !obs[0].before && !obs[0].signalled && !obs[0].after
    requires Completes(obs[1])
    ensures var r := Read(true, st, count, false, false, obs, received, copyOk);
            && r.recv == Some(Min(count, MAX_BUFFER_SIZE))
            && r.st.countIrq == (st.countIrq + 2) % U32_LIMIT
  {
    var p := Pass(st, obs[0], 0);
    CompletedWaitReady(p.0.st, READ_RETRIES, obs[1..]);
    assert WaitForIrq(st, obs) == Prepend(p.0, WaitFrom(p.0.st, READ_RETRIES, 0, obs[1..]));
  }

  /** What `nfc_write` reports: its result and the count sent, if it sent. */
  datatype WriteReply = WriteReply(ret: int, sent: Option<nat>)

  /**
   * `nfc_write`. `copyErr` is the result of memdup_user (0 for success, the
   * error otherwise) and `sendResult` that of i2c_master_send.
   */
  function Write(hasDev: bool, count: nat, copyErr: int, sendResult: int): (r: WriteReply)
    ensures !hasDev ==> r == WriteReply(-ENODEV, None)
    // oversize payloads are refused before any copy or transfer
    ensures hasDev && count > MAX_BUFFER_SIZE ==> r == WriteReply(-ENOMEM, None)
    ensures hasDev && count <= MAX_BUFFER_SIZE && copyErr != 0 ==> r == WriteReply(copyErr, None)
    ensures r.sent.Some? ==> hasDev && r.sent.value == count && count <= MAX_BUFFER_SIZE && copyErr == 0
    // with a session, a payload that fits and a clean copy, the payload is sent
    ensures hasDev && count <= MAX_BUFFER_SIZE && copyErr == 0 ==> r.sent == Some(count)
    // a short or failed transfer is an I/O error; a complete one returns the count
    ensures r.sent.Some? ==> r.ret == (if sendResult == count then count else -EIO)
    ensures r.ret >= 0 && copyErr <= 0 ==> r.sent == Some(count) && r.ret == count
  {
    if !hasDev then WriteReply(-ENODEV, None)
    else if count > MAX_BUFFER_SIZE then WriteReply(-ENOMEM, None)
    else if copyErr != 0 then WriteReply(copyErr, None)
    else if sendResult != count then WriteReply(-EIO, Some(count))
    else WriteReply(count, Some(count))
  }

  /**
   * A write reports success exactly when there is a session, the payload
   * fits, the copy succeeds and the whole payload is sent (the copy's result
   * is 0 or a negative error).
   */
  lemma WriteSucceedsIff(hasDev: bool, count: nat, copyErr: int, sendResult: int)
    ensures copyErr <= 0 ==>
              (Write(hasDev, count, copyErr, sendResult).ret >= 0 <==>
               hasDev && count <= MAX_BUFFER_SIZE && copyErr == 0 && sendResult == count)
    ensures Write(hasDev, count, copyErr, sendResult).ret == count && count > 0 && copyErr <= 0 ==>
              Write(hasDev, count, copyErr, sendResult).sent == Some(count)
  {
  }
}

=== FILE: nfc_power.dfy ===
/**
 * The NQx control surface: the `SET_PWR` power-state command, eSE power
 * acquire/release/query, and the ioctl opcode dispatch.
 */
module NfcPower {
  import opened Kernel
  import opened NfcState

  /**
   * Power on in firmware-download mode (`arg` 2): unmask the interrupt so a
   * recovery can complete, raise VEN, raise firmware mode when its line is
   * valid, then toggle VEN low and high again.
   */
  function DownloadMode(st: Nqx): (r: Reply)
    ensures r.ret == 0
    ensures Explains(st, r.trace, r.st)
    ensures r.st == st.(hw := r.st.hw)
    ensures r.st.hw.irqEnabled && r.st.hw.ven && r.st.hw.ese == st.hw.ese
    ensures r.st.hw.firm == (st.pins.firmValid || st.hw.firm)
    ensures IrqOn in r.trace <==> !st.hw.irqEnabled
  {
    var u := Unmask(st);
    var firm := if st.pins.firmValid then [Drive(Firm, true)] else [];
    var toggle := [Drive(Ven, true)] + firm + [Drive(Ven, false), Drive(Ven, true)];
    var hw := u.st.hw.(ven := true, firm := st.pins.firmValid || st.hw.firm);
    ReplayAppend(u.st.hw, [Drive(Ven, true)], firm);
    ReplayAppend(u.st.hw, [Drive(Ven, true)] + firm, [Drive(Ven, false), Drive(Ven, true)]);
    ReplayAppend(st.hw, u.trace, toggle);
    assert IrqOn !in toggle;
    Reply(u.st.(hw := hw), 0, u.trace + toggle)
  }

  /**
   * Power off (`arg` 0) or on (`arg` 1): drive firmware mode low when the
   * firmware GPIO number is nonzero, then VEN to the requested level.
   */
  function PowerLevel(st: Nqx, on: bool): (r: Reply)
    ensures r.ret == 0
    ensures Explains(st, r.trace, r.st)
    ensures r.st == st.(hw := r.st.hw)
    ensures r.st.hw.ven == on && r.st.hw.irqEnabled == st.hw.irqEnabled && r.st.hw.ese == st.hw.ese
    ensures r.st.hw.firm == (if st.pins.firmGpio != 0 then false else st.hw.firm)
    ensures IrqOn !in r.trace && IrqOff !in r.trace
    // exactly these writes, in this order: firmware mode low (when the line
    // number is nonzero), then VEN
    ensures Writes(r.trace) == (if st.pins.firmGpio != 0 then [(Firm, false)] else []) + [(Ven, on)]
  {
    var firm := if st.pins.firmGpio != 0 then [Drive(Firm, false)] else [];
    var hw := st.hw.(ven := on, firm := if st.pins.firmGpio != 0 then false else st.hw.firm);
    ReplayAppend(st.hw, firm, [Drive(Ven, on)]);
    WritesAppend(firm, [Drive(Ven, on)]);
    assert Writes(firm) == (if st.pins.firmGpio != 0 then [(Firm, false)] else []);
    assert Writes([Drive(Ven, on)]) == [(Ven, on)];
    Reply(st.(hw := hw), 0, firm + [Drive(Ven, on)])
  }

  /**
   * `nfc_ioctl_power_states` (the live definition). `arg` 0 powers off, 1
   * powers on, 2 powers on in firmware-download mode; anything else is
   * refused. Settle delays are not modelled.
   */
  function SetPower(st: Nqx, arg: nat): (r: Reply)
    ensures arg > 2 ==> r == Reply(st, -EINVAL, [])
    ensures arg <= 2 ==> r.ret == 0
    ensures Explains(st, r.trace, r.st)
    ensures r.st == st.(hw := r.st.hw)
    ensures r.st.hw.ese == st.hw.ese
    // off and on: VEN ends at the requested level, firmware mode low unless
    // the firmware GPIO number is zero, the interrupt mask untouched
    ensures arg <= 1 ==> r.st.hw.ven == (arg == 1) && r.st.hw.irqEnabled == st.hw.irqEnabled
    ensures arg <= 1 ==> r.st.hw.firm == (if st.pins.firmGpio != 0 then false else st.hw.firm)
    ensures arg <= 1 ==> IrqOn !in r.trace && IrqOff !in r.trace
    ensures arg <= 1 ==>
      Writes(r.trace) == (if st.pins.firmGpio != 0 then [(Firm, false)] else []) + [(Ven, arg == 1)]
    // download mode: interrupt unmasked, VEN left high, firmware mode high
    // when the line is valid
    ensures arg == 2 ==> r.st.hw.irqEnabled && r.st.hw.ven
    ensures arg == 2 ==> r.st.hw.firm == (st.pins.firmValid || st.hw.firm)
    ensures arg == 2 ==> (IrqOn in r.trace <==> !st.hw.irqEnabled)
  {
    if arg == 2 then DownloadMode(st)
    else if arg <= 1 then PowerLevel(st, arg == 1)
    else Reply(st, -EINVAL, [])
  }

  lemma DownloadModeTrace(st: Nqx)
    ensures DownloadMode(st).trace ==
      (if st.hw.irqEnabled then [] else [IrqOn]) +
      [Drive(Ven, true)] +
      (if st.pins.firmValid then [Drive(Firm, true)] else []) +
      [Drive(Ven, false), Drive(Ven, true)]
  {
    var unmask := if st.hw.irqEnabled then [] else [IrqOn];
    var firm := if st.pins.firmValid then [Drive(Firm, true)] else [];
    assert unmask + ([Drive(Ven, true)] + firm + [Drive(Ven, false), Drive(Ven, true)])
        == unmask + [Drive(Ven, true)] + firm + [Drive(Ven, false), Drive(Ven, true)];
  }

  /** The exact order of effects of a download-mode power-up. */
  lemma FirmwareDownloadSequence(st: Nqx)
    ensures SetPower(st, 2).trace ==
      (if st.hw.irqEnabled then [] else [IrqOn]) +
      [Drive(Ven, true)] +
      (if st.pins.firmValid then [Drive(Firm, true)] else []) +
      [Drive(Ven, false), Drive(Ven, true)]
    ensures Writes(SetPower(st, 2).trace) ==
      [(Ven, true)] + (if st.pins.firmValid then [(Firm, true)] else []) + [(Ven, false), (Ven, true)]
  {
    var unmask := if st.hw.irqEnabled then [] else [IrqOn];
    var firm := if st.pins.firmValid then [Drive(Firm, true)] else [];
    var t := SetPower(st, 2).trace;
    DownloadModeTrace(st);
    assert t == unmask + [Drive(Ven, true)] + firm + [Drive(Ven, false), Drive(Ven, true)];
    assert Writes(unmask) == [];
    assert Writes([Drive(Ven, true)]) == [(Ven, true)];
    assert Writes(firm) == (if st.pins.firmValid then [(Firm, true)] else []);
    assert Writes([Drive(Ven, false), Drive(Ven, true)]) == [(Ven, false), (Ven, true)] by {
      assert [Drive(Ven, false), Drive(Ven, true)][1..] == [Drive(Ven, true)];
    }
    WritesAppend(unmask + [Drive(Ven, true)] + firm, [Drive(Ven, false), Drive(Ven, true)]);
    WritesAppend(unmask + [Drive(Ven, true)], firm);
    WritesAppend(unmask, [Drive(Ven, true)]);
  }

  /** Powering off, or on, twice in a row changes nothing the second time. */
  lemma SetPowerIdempotent(st: Nqx, arg: nat)
    requires arg <= 1
    ensures SetPower(SetPower(st, arg).st, arg).st == SetPower(st, arg).st
  {
  }

  /**
   * Acquire (`arg` 0): record whether VEN was already high, raise VEN, and
   * raise the eSE line when it is valid; an invalid line gives -1.
   */
  function EseAcquire(st: Nqx): (r: Reply)
    ensures Explains(st, r.trace, r.st)
    ensures r.st == st.(hw := r.st.hw, nfcVenEnabled := st.hw.ven)
    ensures r.st.hw == st.hw.(ven := true, ese := st.hw.ese || st.pins.eseValid)
    ensures Drive(Ven, true) in r.trace <==> !st.hw.ven
    ensures r.ret == (if st.pins.eseValid then 0 else -1)
  {
    var ven := if !st.hw.ven then [Drive(Ven, true)] else [];
    var ese := if st.pins.eseValid && !st.hw.ese then [Drive(Ese, true)] else [];
    var mid := st.hw.(ven := true);
    var hw := mid.(ese := st.hw.ese || st.pins.eseValid);
    assert Replay(st.hw, ven) == mid;
    assert Replay(mid, ese) == hw;
    ReplayAppend(st.hw, ven, ese);
    Reply(st.(nfcVenEnabled := st.hw.ven, hw := hw), if st.pins.eseValid then 0 else -1, ven + ese)
  }

  /**
   * Release (`arg` 1): lower the eSE line when it is valid, and lower VEN
   * only when the acquire found it low; an invalid line gives -1.
   */
  function EseRelease(st: Nqx): (r: Reply)
    ensures Explains(st, r.trace, r.st)
    ensures r.st == st.(hw := r.st.hw)
    ensures r.st.hw == st.hw.(ese := st.hw.ese && !st.pins.eseValid, ven := st.hw.ven && st.nfcVenEnabled)
    ensures Drive(Ven, false) in r.trace <==> !st.nfcVenEnabled
    ensures r.ret == (if st.pins.eseValid then 0 else -1)
  {
    var ese := if st.pins.eseValid then [Drive(Ese, false)] else [];
    var ven := if !st.nfcVenEnabled then [Drive(Ven, false)] else [];
    var mid := st.hw.(ese := st.hw.ese && !st.pins.eseValid);
    var hw := mid.(ven := st.hw.ven && st.nfcVenEnabled);
    assert Replay(st.hw, ese) == mid;
    assert Replay(mid, ven) == hw;
    ReplayAppend(st.hw, ese, ven);
    Reply(st.(hw := hw), if st.pins.eseValid then 0 else -1, ese + ven)
  }

  /**
   * `nqx_ese_pwr`. `arg` 0 acquires eSE power, `arg` 1 releases it, `arg` 3
   * queries it. The result is 0 on success; a query gives 0 while VEN was
   * not recorded high, otherwise the eSE level when the line is valid and
   * -1 when it is not; anything else is -1.
   */
  function EsePower(st: Nqx, arg: nat): (r: Reply)
    ensures Explains(st, r.trace, r.st)
    ensures r.st == st.(hw := r.st.hw, nfcVenEnabled := r.st.nfcVenEnabled)
    ensures r.st.hw.irqEnabled == st.hw.irqEnabled && r.st.hw.firm == st.hw.firm
    ensures arg == 0 ==> r.st.nfcVenEnabled == st.hw.ven && r.st.hw.ven
    ensures arg == 0 ==> (Drive(Ven, true) in r.trace <==> !st.hw.ven)
    ensures arg == 0 && st.pins.eseValid ==> r.st.hw.ese && r.ret == 0
    ensures arg == 1 ==> r.st.nfcVenEnabled == st.nfcVenEnabled
    ensures arg == 1 ==> r.st.hw.ven == (st.hw.ven && st.nfcVenEnabled)
    ensures arg == 1 ==> (Drive(Ven, false) in r.trace <==> !st.nfcVenEnabled)
    ensures arg == 1 && st.pins.eseValid ==> !r.st.hw.ese && r.ret == 0
    ensures arg <= 1 && !st.pins.eseValid ==> r.ret == -1 && r.st.hw.ese == st.hw.ese
    ensures arg == 3 ==> r.st == st && r.trace == []
    ensures arg == 3 && !st.nfcVenEnabled ==> r.ret == 0
    ensures arg == 3 && st.nfcVenEnabled && st.pins.eseValid ==> r.ret == (if st.hw.ese then 1 else 0)
    ensures arg == 3 && st.nfcVenEnabled && !st.pins.eseValid ==> r.ret == -1
    ensures arg !in {0, 1, 3} ==> r == Reply(st, -1, [])
  {
    if arg == 0 then EseAcquire(st)
    else if arg == 1 then EseRelease(st)
    else if arg == 3 then
      var ret := if !st.nfcVenEnabled then 0
                 else if st.pins.eseValid then (if st.hw.ese then 1 else 0)
                 else -1;
      Reply(st, ret, [])
    else
      Reply(st, -1, [])
  }

  /**
   * The eSE shares VEN with the controller: an acquire followed by a release
   * leaves VEN at the level it had before the acquire, so a release never
   * powers off a controller that was already on.
   */
  lemma EseAcquireReleaseRestoresVen(st: Nqx)
    ensures EsePower(EsePower(st, 0).st, 1).st.hw.ven == st.hw.ven
    ensures st.hw.ven ==> Drive(Ven, false) !in EsePower(EsePower(st, 0).st, 1).trace
    ensures !st.hw.ven ==> Drive(Ven, false) in EsePower(EsePower(st, 0).st, 1).trace
  {
  }

  /** The commands of the ioctl surface; the numeric opcodes are not modelled. */
  datatype Cmd =
    | SetPwr
    | EseSetPwr
    | EseGetPwr
    | SetRxBlock
    | SetEmulatorTestPoint
    | InitialCoreResetNtf
    | GetInfo
    | Unknown

  /**
   * `nfc_ioctl`: dispatch to the handlers and return their result; unknown
   * commands are refused with -ENOIOCTLCMD. The two counters reported by
   * the query commands are `unsigned int` values returned through `int`.
   */
  function Ioctl(st: Nqx, cmd: Cmd, arg: nat): (r: Reply)
    ensures cmd == SetPwr ==> r == SetPower(st, arg)
    ensures cmd == EseSetPwr ==> r == EsePower(st, arg)
    ensures cmd == EseGetPwr ==> r == EsePower(st, 3)
    ensures cmd in {SetRxBlock, SetEmulatorTestPoint} ==> r == Reply(st, 0, [])
    ensures cmd == InitialCoreResetNtf ==> r.st == st && r.trace == [] && r.ret % U32_LIMIT == st.coreResetNtf
    ensures cmd == GetInfo ==> r.st == st && r.trace == [] && r.ret % U32_LIMIT == st.info
    ensures cmd == Unknown ==> r == Reply(st, -ENOIOCTLCMD, [])
    ensures Explains(st, r.trace, r.st)
  {
    match cmd
    case SetPwr => SetPower(st, arg)
    case EseSetPwr => EsePower(st, arg)
    case EseGetPwr => EsePower(st, 3)
    case SetRxBlock => Reply(st, 0, [])
    case SetEmulatorTestPoint => Reply(st, 0, [])
    case InitialCoreResetNtf => Reply(st, AsInt32(st.coreResetNtf), [])
    case GetInfo => Reply(st, AsInt32(st.info), [])
    case Unknown => Reply(st, -ENOIOCTLCMD, [])
  }

  /**
   * `nfc_compat_ioctl`: the same dispatch for 32-bit callers, except that the
   * handlers' results are discarded and the two query commands are unknown.
   */
  function CompatIoctl(st: Nqx, cmd: Cmd, arg: nat): (r: Reply)
    ensures r.ret == 0 || r.ret == -ENOTTY
    ensures r.ret == 0 <==> cmd in {SetPwr, EseSetPwr, EseGetPwr, SetRxBlock, SetEmulatorTestPoint}
    ensures r.ret == 0 ==> r.st == Ioctl(st, cmd, arg).st && r.trace == Ioctl(st, cmd, arg).trace
    ensures r.ret != 0 ==> r.st == st && r.trace == []
  {
    match cmd
    case SetPwr => var h := SetPower(st, arg); Reply(h.st, 0, h.trace)
    case EseSetPwr => var h := EsePower(st, arg); Reply(h.st, 0, h.trace)
    case EseGetPwr => var h := EsePower(st, 3); Reply(h.st, 0, h.trace)
    case SetRxBlock => Reply(st, 0, [])
    case SetEmulatorTestPoint => Reply(st, 0, [])
    case _ => Reply(st, -ENOTTY, [])
  }

  /** No command of the ioctl surface touches the interrupt counter or the suspend mark. */
  lemma IoctlKeepsBookkeeping(st: Nqx, cmd: Cmd, arg: nat)
    ensures Ioctl(st, cmd, arg).st.countIrq == st.countIrq
    ensures Ioctl(st, cmd, arg).st.suspended == st.suspended
    ensures Ioctl(st, cmd, arg).st.pins == st.pins
  {
  }
}

=== FILE: nfc_probe.dfy ===
/**
 * Bring-up of an NQx controller (`nqx_probe`) as a stack of acquired
 * resources. Each kernel call's outcome is an input; a failing step jumps to
 * one of the unwind labels, which fall through one another and release
 * resources in the reverse order of their acquisition.
 *
 * sysfs registration, the wake lock, wake-up configuration and logging are
 * not modelled.
 */
module NfcProbe {
  import opened Kernel
  import opened NfcState

  /** Outcomes of the kernel calls made for one GPIO line. */
  datatype PinCalls = PinCalls(valid: bool, request: int, direction: int)

  /** Outcomes of every kernel call `nqx_probe` makes (0 is success). */
  datatype ProbeCalls = ProbeCalls(
    ofNode: bool,        // the client has a device-tree node
    pdataAlloc: bool,    // devm_kzalloc of the platform data succeeds
    boardPdata: bool,    // without a node: the board supplied platform data
    i2cFunc: bool,       // the adapter supports plain i2c
    devAlloc: bool,      // kzalloc of the session succeeds
    kbufAlloc: bool,     // kzalloc of the read buffer succeeds
    firmGpio: int,       // the firmware-mode GPIO number
    ven: PinCalls,
    irq: PinCalls,
    irqNumber: int,      // gpio_to_irq
    firm: PinCalls,
    sysfs: int,          // sysfs group and link creation
    misc: int,           // misc_register
    requestIrq: int,     // request_irq
    eseValid: bool,      // gpio_is_valid of the (never assigned, zero) eSE number
    eseLevel: bool,      // the level that never-requested eSE line has at probe
    chipInfo: u32)       // the identity word nfcc_hw_check leaves in nqx_info

  /** What probe holds while it runs. */
  datatype Res =
    | PlatformData | DevMem | ReadBuf | VenPin | IrqPin | FirmPin | ReadLock | MiscDev | IrqRequested

  /** The unwind labels, in fall-through order. */
  datatype Label =
    | ErrRequestHwCheckFailed | ErrRequestIrqFailed | ErrMiscRegister | ErrCreateLink
    | ErrFirmGpio | ErrIrqGpio | ErrEnGpio | ErrMem | ErrFreeDev | ErrFreeData | ErrPlatformData

  function Rank(l: Label): (n: nat)
  {
    match l
    case ErrRequestHwCheckFailed => 10
    case ErrRequestIrqFailed => 9
    case ErrMiscRegister => 8
    case ErrCreateLink => 7
    case ErrFirmGpio => 6
    case ErrIrqGpio => 5
    case ErrEnGpio => 4
    case ErrMem => 3
    case ErrFreeDev => 2
    case ErrFreeData => 1
    case ErrPlatformData => 0
  }

  /**
   * The releases performed from label `l` to the end of the function. The
   * eSE line is never requested here and its recorded number is zero, so the
   * `ese_gpio > 0` release is skipped; the platform data is released only
   * when it was allocated for a device-tree node.
   */
  function Unwind(l: Label, ofNode: bool): (rs: seq<Res>)
    decreases Rank(l)
  {
    match l
    case ErrRequestHwCheckFailed => [IrqRequested] + Unwind(ErrRequestIrqFailed, ofNode)
    case ErrRequestIrqFailed => [MiscDev] + Unwind(ErrMiscRegister, ofNode)
    case ErrMiscRegister => [ReadLock] + Unwind(ErrCreateLink, ofNode)
    case ErrCreateLink => Unwind(ErrFirmGpio, ofNode)
    case ErrFirmGpio => [FirmPin] + Unwind(ErrIrqGpio, ofNode)
    case ErrIrqGpio => [IrqPin] + Unwind(ErrEnGpio, ofNode)
    case ErrEnGpio => [VenPin] + Unwind(ErrMem, ofNode)
    case ErrMem => [ReadBuf] + Unwind(ErrFreeDev, ofNode)
    case ErrFreeDev => [DevMem] + Unwind(ErrFreeData, ofNode)
    case ErrFreeData => if ofNode then [PlatformData] else []
    case ErrPlatformData => []
  }

  function Reverse<T>(s: seq<T>): (r: seq<T>)
    ensures |r| == |s|
    ensures forall i :: 0 <= i < |s| ==> r[i] == s[|s| - 1 - i]
  {
    if s == [] then [] else Reverse(s[1..]) + [s[0]]
  }

  /** What probe holds when it jumps to label `l`, oldest first. */
  function Held(l: Label, ofNode: bool): (rs: seq<Res>)
    decreases Rank(l)
  {
    match l
    case ErrRequestHwCheckFailed => Held(ErrRequestIrqFailed, ofNode) + [IrqRequested]
    case ErrRequestIrqFailed => Held(ErrMiscRegister, ofNode) + [MiscDev]
    case ErrMiscRegister => Held(ErrCreateLink, ofNode) + [ReadLock]
    case ErrCreateLink => Held(ErrFirmGpio, ofNode)
    case ErrFirmGpio => Held(ErrIrqGpio, ofNode) + [FirmPin]
    case ErrIrqGpio => Held(ErrEnGpio, ofNode) + [IrqPin]
    case ErrEnGpio => Held(ErrMem, ofNode) + [VenPin]
    case ErrMem => Held(ErrFreeDev, ofNode) + [ReadBuf]
    case ErrFreeDev => Held(ErrFreeData, ofNode) + [DevMem]
    case ErrFreeData => if ofNode then [PlatformData] else []
    case ErrPlatformData => []
  }

  lemma ReverseSnoc<T>(s: seq<T>, x: T)
    ensures Reverse(s + [x]) == [x] + Reverse(s)
  {
  }

  /** Each label releases exactly what is held on reaching it, newest first. */
  lemma {:induction false} UnwindReversesHeld(l: Label, ofNode: bool)
    ensures Unwind(l, ofNode) == Reverse(Held(l, ofNode))
    decreases Rank(l)
  {
    match l
    case ErrRequestHwCheckFailed =>
      UnwindReversesHeld(ErrRequestIrqFailed, ofNode); ReverseSnoc(Held(ErrRequestIrqFailed, ofNode), IrqRequested);
    case ErrRequestIrqFailed =>
      UnwindReversesHeld(ErrMiscRegister, ofNode); ReverseSnoc(Held(ErrMiscRegister, ofNode), MiscDev);
    case ErrMiscRegister =>
      UnwindReversesHeld(ErrCreateLink, ofNode); ReverseSnoc(Held(ErrCreateLink, ofNode), ReadLock);
    case ErrCreateLink =>
      UnwindReversesHeld(ErrFirmGpio, ofNode);
    case ErrFirmGpio =>
      UnwindReversesHeld(ErrIrqGpio, ofNode); ReverseSnoc(Held(ErrIrqGpio, ofNode), FirmPin);
    case ErrIrqGpio =>
      UnwindReversesHeld(ErrEnGpio, ofNode); ReverseSnoc(Held(ErrEnGpio, ofNode), IrqPin);
    case ErrEnGpio =>
      UnwindReversesHeld(ErrMem, ofNode); ReverseSnoc(Held(ErrMem, ofNode), VenPin);
    case ErrMem =>
      UnwindReversesHeld(ErrFreeDev, ofNode); ReverseSnoc(Held(ErrFreeDev, ofNode), ReadBuf);
    case ErrFreeDev =>
      UnwindReversesHeld(ErrFreeData, ofNode); ReverseSnoc(Held(ErrFreeData, ofNode), DevMem);
    case ErrFreeData =>
    case ErrPlatformData =>
  }

  /** Everything probe holds once registration is done, oldest first. */
  lemma HeldAfterRegistration(ofNode: bool)
    ensures Held(ErrRequestHwCheckFailed, ofNode) ==
              (if ofNode then [PlatformData] else []) +
              [DevMem, ReadBuf, VenPin, IrqPin, FirmPin, ReadLock, MiscDev, IrqRequested]
  {
  }

  /** How probe ends: its result, what it acquired, and what it released. */
  datatype Probe = Probe(ret: int, acquired: seq<Res>, released: seq<Res>, dev: Option<Nqx>)

  /**
   * A jump to label `at` with result `r`, having acquired `held`; every jump
   * of the source must hold exactly what its label releases.
   */
  function Fail(r: int, at: Label, held: seq<Res>, ofNode: bool): (p: Probe)
    requires held == Held(at, ofNode)
    ensures p.ret == r && p.acquired == held && p.dev.None?
    ensures p.released == Reverse(held)
  {
    UnwindReversesHeld(at, ofNode);
    Probe(r, held, Unwind(at, ofNode), None)
  }

  /**
   * The session a completed probe registers: VEN and firmware mode driven
   * low, the interrupt requested and then masked, the zeroed fields of the
   * fresh allocation, and the chip identity stored by `nfcc_hw_check`.
   */
  function FreshSession(c: ProbeCalls): (st: Nqx)
    ensures !st.hw.ven && !st.hw.firm && !st.hw.irqEnabled && st.hw.ese == c.eseLevel
    ensures st.countIrq == 0 && !st.suspended && !st.nfcVenEnabled && st.hasKbuf
    ensures st.coreResetNtf == 0 && st.info == c.chipInfo
    ensures st.pins == Pins(c.firmGpio, true, c.eseValid)
  {
    Nqx(Pins(c.firmGpio, true, c.eseValid), Hw(false, false, c.eseLevel, false),
        0, false, false, 0, c.chipInfo, true)
  }

  /** Each kernel call for one line succeeds. */
  predicate PinReady(p: PinCalls)
  {
    p.valid && p.request == 0 && p.direction == 0
  }

  /** The platform data is available: allocated for a node, or supplied by the board. */
  predicate PlatformDataOk(c: ProbeCalls)
  {
    if c.ofNode then c.pdataAlloc else c.boardPdata
  }

  /** Every kernel call probe makes succeeds. */
  predicate AllCallsSucceed(c: ProbeCalls)
  {
    && PlatformDataOk(c) && c.i2cFunc && c.devAlloc && c.kbufAlloc
    && PinReady(c.ven) && PinReady(c.irq) && c.irqNumber >= 0 && PinReady(c.firm)
    && c.sysfs == 0 && c.misc == 0 && c.requestIrq == 0
  }

  /** Registration, once all three lines are held (source order: sysfs, misc device, interrupt). */
  function ProbeRegister(c: ProbeCalls): (p: Probe)
    ensures p.dev.Some? ==> p.released == [] && p.ret == 0 && p.dev.value == FreshSession(c)
    ensures p.dev.Some? ==> p.acquired == Held(ErrRequestHwCheckFailed, c.ofNode)
    ensures p.dev.None? ==> p.released == Reverse(p.acquired) && p.ret != 0
    // registration succeeds exactly when its three calls do
    ensures p.dev.Some? <==> c.sysfs == 0 && c.misc == 0 && c.requestIrq == 0
    // otherwise the first failing call's result is returned
    ensures c.sysfs != 0 ==> p.ret == c.sysfs
    ensures c.sysfs == 0 && c.misc != 0 ==> p.ret == c.misc
    ensures c.sysfs == 0 && c.misc == 0 && c.requestIrq != 0 ==> p.ret == c.requestIrq
  {
    var pins := Held(ErrCreateLink, c.ofNode);
    if c.sysfs != 0 then Fail(c.sysfs, ErrCreateLink, pins, c.ofNode)
    else if c.misc != 0 then Fail(c.misc, ErrMiscRegister, pins + [ReadLock], c.ofNode)
    else if c.requestIrq != 0 then Fail(c.requestIrq, ErrRequestIrqFailed, pins + [ReadLock, MiscDev], c.ofNode)
    // nfcc_hw_check only records the fixed chip identity and returns 0
    else Probe(0, pins + [ReadLock, MiscDev, IrqRequested], [], Some(FreshSession(c)))
  }

  /** The firmware-mode line, once VEN and the IRQ line are held; then registration. */
  function ProbeFirmLine(c: ProbeCalls, missingPinErr: int): (p: Probe)
    ensures p.dev.Some? ==> p.released == [] && p.ret == 0 && p.dev.value == FreshSession(c)
    ensures p.dev.Some? ==> p.acquired == Held(ErrRequestHwCheckFailed, c.ofNode)
    ensures p.dev.None? ==> p.released == Reverse(p.acquired)
    ensures p.dev.Some? <==> PinReady(c.firm) && c.sysfs == 0 && c.misc == 0 && c.requestIrq == 0
    ensures PinReady(c.firm) ==> p == ProbeRegister(c)
    ensures !c.firm.valid ==> p.ret == missingPinErr && p.dev.None?
    ensures c.firm.valid && c.firm.request != 0 ==> p.ret == c.firm.request
    ensures c.firm.valid && c.firm.request == 0 && c.firm.direction != 0 ==> p.ret == c.firm.direction
  {
    var held := Held(ErrIrqGpio, c.ofNode);
    if !c.firm.valid then Fail(missingPinErr, ErrIrqGpio, held, c.ofNode)
    else if c.firm.request != 0 then Fail(c.firm.request, ErrIrqGpio, held, c.ofNode)
    else if c.firm.direction != 0 then Fail(c.firm.direction, ErrFirmGpio, held + [FirmPin], c.ofNode)
    else ProbeRegister(c)
  }

  /** The IRQ line and its interrupt number, once VEN is held; then the firmware line. */
  function ProbeIrqLine(c: ProbeCalls, missingPinErr: int): (p: Probe)
    ensures p.dev.Some? ==> p.released == [] && p.ret == 0 && p.dev.value == FreshSession(c)
    ensures p.dev.Some? ==> p.acquired == Held(ErrRequestHwCheckFailed, c.ofNode)
    ensures p.dev.None? ==> p.released == Reverse(p.acquired)
    ensures p.dev.Some? <==>
              && PinReady(c.irq) && c.irqNumber >= 0 && PinReady(c.firm)
              && c.sysfs == 0 && c.misc == 0 && c.requestIrq == 0
    ensures PinReady(c.irq) && c.irqNumber >= 0 ==> p == ProbeFirmLine(c, missingPinErr)
    ensures !c.irq.valid ==> p.ret == missingPinErr && p.dev.None?
    ensures c.irq.valid && c.irq.request != 0 ==> p.ret == c.irq.request
    ensures c.irq.valid && c.irq.request == 0 && c.irq.direction != 0 ==> p.ret == c.irq.direction
    ensures PinReady(c.irq) && c.irqNumber < 0 ==> p.ret == c.irqNumber
  {
    var held := Held(ErrEnGpio, c.ofNode);
    if !c.irq.valid then Fail(missingPinErr, ErrEnGpio, held, c.ofNode)
    else if c.irq.request != 0 then Fail(c.irq.request, ErrEnGpio, held, c.ofNode)
    else if c.irq.direction != 0 then Fail(c.irq.direction, ErrIrqGpio, held + [IrqPin], c.ofNode)
    else if c.irqNumber < 0 then Fail(c.irqNumber, ErrIrqGpio, held + [IrqPin], c.ofNode)
    else ProbeFirmLine(c, missingPinErr)
  }

  /** The three required lines, once the memory is held; `missingPinErr` as in `ProbeWith`. */
  function ProbePins(c: ProbeCalls, missingPinErr: int): (p: Probe)
    ensures p.dev.Some? ==> p.released == [] && p.ret == 0 && p.dev.value == FreshSession(c)
    ensures p.dev.Some? ==> p.acquired == Held(ErrRequestHwCheckFailed, c.ofNode)
    ensures p.dev.None? ==> p.released == Reverse(p.acquired)
    // a session is registered exactly when the line calls and the registration calls succeed
    ensures p.dev.Some? <==>
              && PinReady(c.ven) && PinReady(c.irq) && c.irqNumber >= 0 && PinReady(c.firm)
              && c.sysfs == 0 && c.misc == 0 && c.requestIrq == 0
    // three lines set up proceed to registration
    ensures PinReady(c.ven) && PinReady(c.irq) && c.irqNumber >= 0 && PinReady(c.firm) ==> p == ProbeRegister(c)
    // a line not provided reports `missingPinErr`; a failing call reports its own result
    ensures !c.ven.valid ==> p.ret == missingPinErr && p.dev.None?
    ensures c.ven.valid && c.ven.request != 0 ==> p.ret == c.ven.request
    ensures c.ven.valid && c.ven.request == 0 && c.ven.direction != 0 ==> p.ret == c.ven.direction
    ensures PinReady(c.ven) && !c.irq.valid ==> p.ret == missingPinErr && p.dev.None?
    ensures PinReady(c.ven) && c.irq.valid && c.irq.request != 0 ==> p.ret == c.irq.request
    ensures PinReady(c.ven) && c.irq.valid && c.irq.request == 0 && c.irq.direction != 0 ==> p.ret == c.irq.direction
    ensures PinReady(c.ven) && PinReady(c.irq) && c.irqNumber < 0 ==> p.ret == c.irqNumber
    ensures PinReady(c.ven) && PinReady(c.irq) && c.irqNumber >= 0 && !c.firm.valid ==>
              p.ret == missingPinErr && p.dev.None?
    ensures PinReady(c.ven) && PinReady(c.irq) && c.irqNumber >= 0 && c.firm.valid && c.firm.request != 0 ==>
              p.ret == c.firm.request
    ensures PinReady(c.ven) && PinReady(c.irq) && c.irqNumber >= 0 && c.firm.valid && c.firm.request == 0 &&
            c.firm.direction != 0 ==>
              p.ret == c.firm.direction
  {
    var mem := Held(ErrMem, c.ofNode);
    if !c.ven.valid then Fail(missingPinErr, ErrMem, mem, c.ofNode)
    else if c.ven.request != 0 then Fail(c.ven.request, ErrMem, mem, c.ofNode)
    else if c.ven.direction != 0 then Fail(c.ven.direction, ErrEnGpio, mem + [VenPin], c.ofNode)
    else ProbeIrqLine(c, missingPinErr)
  }

  /**
   * `nqx_probe`, with `missingPinErr` the result reported when a required
   * line is not provided: as written the code jumps to the unwind without
   * setting its result, which is still 0.
   */
  function ProbeWith(c: ProbeCalls, missingPinErr: int): (p: Probe)
    ensures p.dev.Some? ==> p.released == [] && p.ret == 0 && p.dev.value == FreshSession(c)
    ensures p.dev.Some? ==>
              p.acquired == (if c.ofNode then [PlatformData] else []) +
                            [DevMem, ReadBuf, VenPin, IrqPin, FirmPin, ReadLock, MiscDev, IrqRequested]
    // all-or-nothing: a failed probe releases exactly what it acquired, newest first
    ensures p.dev.None? ==> p.released == Reverse(p.acquired)
    // all: a session is registered exactly when every call succeeds
    ensures p.dev.Some? <==> AllCallsSucceed(c)
    // the allocation failures and their codes
    ensures c.ofNode && !c.pdataAlloc ==> p == Probe(-ENOMEM, [], [], None)
    ensures !c.ofNode && !c.boardPdata ==> p == Probe(-ENODEV, [], [], None)
    ensures PlatformDataOk(c) && !c.i2cFunc ==> p.ret == -ENODEV && p.dev.None?
    ensures PlatformDataOk(c) && c.i2cFunc && !c.devAlloc ==> p.ret == -ENOMEM && p.dev.None?
    ensures PlatformDataOk(c) && c.i2cFunc && c.devAlloc && !c.kbufAlloc ==>
              p.ret == -ENOMEM && p.released == [DevMem] + (if c.ofNode then [PlatformData] else [])
    ensures AllocationsSucceed(c) ==> p == ProbePins(c, missingPinErr)
  {
    var pd := if c.ofNode then [PlatformData] else [];
    HeldAfterRegistration(c.ofNode);
    if c.ofNode && !c.pdataAlloc then Fail(-ENOMEM, ErrPlatformData, [], c.ofNode)
    else if !c.ofNode && !c.boardPdata then Fail(-ENODEV, ErrPlatformData, [], c.ofNode)
    else if !c.i2cFunc then Fail(-ENODEV, ErrFreeData, pd, c.ofNode)
    else if !c.devAlloc then Fail(-ENOMEM, ErrFreeData, pd, c.ofNode)
    else if !c.kbufAlloc then Fail(-ENOMEM, ErrFreeDev, pd + [DevMem], c.ofNode)
    else ProbePins(c, missingPinErr)
  }

  /** `nqx_probe` as written. */
  function ProbeAsWritten(c: ProbeCalls): (p: Probe)
    ensures p.dev.Some? <==> AllCallsSucceed(c)
    ensures p.dev.None? ==> p.released == Reverse(p.acquired)
  {
    ProbeWith(c, 0)
  }

  /** `nqx_probe` reporting a missing required line as an invalid argument. */
  function ProbeIntended(c: ProbeCalls): (p: Probe)
    ensures p.dev.Some? <==> AllCallsSucceed(c)
    ensures p.dev.None? ==> p.released == Reverse(p.acquired)
  {
    ProbeWith(c, -EINVAL)
  }

  /** Every allocation before the GPIO lines succeeds. */
  predicate AllocationsSucceed(c: ProbeCalls)
  {
    PlatformDataOk(c) && c.i2cFunc && c.devAlloc && c.kbufAlloc
  }

  /**
   * Probe reaches a required line that is not provided: VEN, or the IRQ
   * line after VEN was set up, or the firmware line after both.
   */
  predicate MissingPin(c: ProbeCalls)
  {
    && AllocationsSucceed(c)
    && (|| !c.ven.valid
        || (c.ven.request == 0 && c.ven.direction == 0 &&
            (|| !c.irq.valid
             || (c.irq.request == 0 && c.irq.direction == 0 && c.irqNumber >= 0 && !c.firm.valid))))
  }

  /**
   * As written, a missing VEN, IRQ or firmware line makes probe report
   * success after it has released everything it acquired: no session exists.
   */
  lemma AsWrittenMissingPinReportsSuccess(c: ProbeCalls)
    requires MissingPin(c)
    ensures ProbeAsWritten(c).ret == 0
    ensures ProbeAsWritten(c).dev.None?
    ensures |ProbeAsWritten(c).released| >= 2
    ensures ReadBuf in ProbeAsWritten(c).released && DevMem in ProbeAsWritten(c).released
    ensures ProbeAsWritten(c).released == Reverse(ProbeAsWritten(c).acquired)
  {
  }

  /** A concrete board without a VEN line: probe returns 0 and registers nothing. */
  lemma AsWrittenNoVenExample()
    ensures var c := ProbeCalls(true, true, true, true, true, true, 5,
                                PinCalls(false, 0, 0), PinCalls(true, 0, 0), 40,
                                PinCalls(true, 0, 0), 0, 0, 0, true, false, 0);
            ProbeAsWritten(c).ret == 0 && ProbeAsWritten(c).dev == None &&
            ProbeAsWritten(c).released == [ReadBuf, DevMem, PlatformData]
  {
    var c := ProbeCalls(true, true, true, true, true, true, 5,
                        PinCalls(false, 0, 0), PinCalls(true, 0, 0), 40,
                        PinCalls(true, 0, 0), 0, 0, 0, true, false, 0);
    assert AllocationsSucceed(c);
    assert ProbePins(c, 0) == Fail(0, ErrMem, Held(ErrMem, true), true);
    assert ProbeAsWritten(c) == ProbePins(c, 0);
    assert Unwind(ErrMem, true) == [ReadBuf, DevMem, PlatformData];
  }

  /** With the missing-line error reported, a zero result means a registered session. */
  lemma IntendedZeroMeansRegistered(c: ProbeCalls)
    ensures ProbeIntended(c).ret == 0 <==> ProbeIntended(c).dev.Some?
    ensures MissingPin(c) ==> ProbeIntended(c).ret == -EINVAL
  {
  }
}

=== FILE: nfc_state.dfy ===
/**
 * The session state of the NQx NFC controller driver and the transitions
 * that touch only its flags: masking the interrupt, the interrupt handler's
 * bookkeeping, open, suspend and resume.
 *
 * Hardware effects are recorded as a trace of events (a GPIO line driven to
 * a level, the interrupt enabled or disabled at the controller). Every
 * transition's trace explains its change of the hardware-facing state:
 * replaying the trace over the old state gives the new one.
 */
module NfcState {
  import opened Kernel

  /** Capacity of the session's read buffer (`MAX_BUFFER_SIZE`, `kbuflen`). */
  const MAX_BUFFER_SIZE: nat := 320

  /** The output lines the driver drives. */
  datatype Line = Ven | Firm | Ese

  /** One hardware effect, in the order the driver issues them. */
  datatype Event =
    | Drive(line: Line, high: bool)   // gpio_set_value(line, high)
    | IrqOn                           // irq_enabled := true; enable_irq()
    | IrqOff                          // disable_irq_nosync(); irq_enabled := false

  /**
   * Line levels and the software interrupt mask. Output lines are assumed to
   * read back the level they were last driven to.
   */
  datatype Hw = Hw(ven: bool, firm: bool, ese: bool, irqEnabled: bool)

  /**
   * What the session knows about its optional lines: the firmware-mode GPIO
   * number (tested against zero by the power-state ioctl) and whether the
   * kernel's `gpio_is_valid` accepts the firmware-mode and eSE numbers.
   */
  datatype Pins = Pins(firmGpio: int, firmValid: bool, eseValid: bool)

  /** One attached controller (`struct nqx_dev`), less locks and buffers. */
  datatype Nqx = Nqx(
    pins: Pins,
    hw: Hw,
    countIrq: u32,         // interrupts handled since the last open
    suspended: bool,       // host asleep with the interrupt armed to wake it
    nfcVenEnabled: bool,   // VEN level recorded by the last eSE acquire
    coreResetNtf: u32,     // CORE_RESET_NTF flag reported by ioctl
    info: u32,             // packed chip identity reported by ioctl
    hasKbuf: bool)         // the read buffer is allocated

  /** A transition without a return code. */
  datatype Effect = Effect(st: Nqx, trace: seq<Event>)

  /** A transition returning a code to its caller. */
  datatype Reply = Reply(st: Nqx, ret: int, trace: seq<Event>)

  function Apply(h: Hw, e: Event): (h': Hw)
  {
    match e
    case Drive(Ven, v) => h.(ven := v)
    case Drive(Firm, v) => h.(firm := v)
    case Drive(Ese, v) => h.(ese := v)
    case IrqOn => h.(irqEnabled := true)
    case IrqOff => h.(irqEnabled := false)
  }

  /** The hardware state after issuing `trace`, in order, from `h`. */
  function Replay(h: Hw, trace: seq<Event>): (h': Hw)
    decreases |trace|
  {
    if trace == [] then h else Replay(Apply(h, trace[0]), trace[1..])
  }

  /** `trace` accounts for every change of the hardware-facing state. */
  ghost predicate Explains(st: Nqx, trace: seq<Event>, st': Nqx)
  {
    Replay(st.hw, trace) == st'.hw
  }

  /** Replaying two traces one after the other is replaying their concatenation. */
  lemma {:induction false} ReplayAppend(h: Hw, a: seq<Event>, b: seq<Event>)
    ensures Replay(h, a + b) == Replay(Replay(h, a), b)
    decreases |a|
  {
    if a == [] {
      assert a + b == b;
    } else {
      assert (a + b)[1..] == a[1..] + b;
      ReplayAppend(Apply(h, a[0]), a[1..], b);
    }
  }

  /** The lines a trace drives, with their levels, ignoring interrupt events. */
  function Writes(trace: seq<Event>): (w: seq<(Line, bool)>)
    ensures |w| <= |trace|
    ensures trace == [] ==> w == []
  {
    if trace == [] then []
    else match trace[0]
      case Drive(l, v) => [(l, v)] + Writes(trace[1..])
      case _ => Writes(trace[1..])
  }

  lemma {:induction false} WritesAppend(a: seq<Event>, b: seq<Event>)
    ensures Writes(a + b) == Writes(a) + Writes(b)
    decreases |a|
  {
    if a == [] {
      assert a + b == b;
    } else {
      assert (a + b)[1..] == a[1..] + b;
      WritesAppend(a[1..], b);
    }
  }

  /** `nqx_disable_irq`: mask the interrupt if, and only if, it is unmasked. */
  function DisableIrq(st: Nqx): (e: Effect)
    ensures !e.st.hw.irqEnabled
    ensures e.st == st.(hw := st.hw.(irqEnabled := false))
    ensures e.trace == [IrqOff] <==> st.hw.irqEnabled
    ensures e.trace == [] <==> !st.hw.irqEnabled
    ensures Explains(st, e.trace, e.st)
  {
    if st.hw.irqEnabled then Effect(st.(hw := st.hw.(irqEnabled := false)), [IrqOff])
    else Effect(st, [])
  }

  /** `irq_enabled = true; enable_irq()` when the interrupt is masked. */
  function Unmask(st: Nqx): (e: Effect)
    ensures e.st.hw.irqEnabled
    ensures e.st == st.(hw := st.hw.(irqEnabled := true))
    ensures e.trace == (if st.hw.irqEnabled then [] else [IrqOn])
    ensures Explains(st, e.trace, e.st)
  {
    if st.hw.irqEnabled then Effect(st, [])
    else Effect(st.(hw := st.hw.(irqEnabled := true)), [IrqOn])
  }

  /** Masking twice is masking once, and the second call issues nothing. */
  lemma DisableIrqIdempotent(st: Nqx)
    ensures DisableIrq(DisableIrq(st).st).st == DisableIrq(st).st
    ensures DisableIrq(DisableIrq(st).st).trace == []
  {
  }

  /**
   * The bookkeeping of `nqx_dev_irq_handler`: mask the interrupt, count the
   * edge (the counter is an `unsigned int` and wraps).
   */
  function IrqHandler(st: Nqx): (e: Effect)
    ensures !e.st.hw.irqEnabled
    ensures e.st.countIrq == (st.countIrq + 1) % U32_LIMIT
    ensures st.countIrq + 1 < U32_LIMIT ==> e.st.countIrq == st.countIrq + 1
    ensures e.st == st.(hw := e.st.hw, countIrq := e.st.countIrq)
    ensures e.st.hw == st.hw.(irqEnabled := false)
    ensures Writes(e.trace) == []
    ensures Explains(st, e.trace, e.st)
  {
    var d := DisableIrq(st);
    Effect(d.st.(countIrq := (d.st.countIrq + 1) % U32_LIMIT), d.trace)
  }

  /** `nfc_open` via `nqx_init_stat`: the interrupt counter starts from zero. */
  function Open(st: Nqx): (st': Nqx)
    ensures st'.countIrq == 0
    ensures st' == st.(countIrq := st'.countIrq)
  {
    st.(countIrq := 0)
  }

  /**
   * `st'` differs from `st` at most in the interrupt mask and the interrupt
   * counter: no line is driven and no other field changes.
   */
  predicate MaskAndCountOnly(st: Nqx, st': Nqx)
  {
    st' == st.(hw := st.hw.(irqEnabled := st'.hw.irqEnabled), countIrq := st'.countIrq)
  }

  lemma MaskAndCountOnlyTrans(a: Nqx, b: Nqx, c: Nqx)
    requires MaskAndCountOnly(a, b) && MaskAndCountOnly(b, c)
    ensures MaskAndCountOnly(a, c)
  {
  }

  /** The session after the interrupt handler has run `n` times. */
  function Interrupted(st: Nqx, n: nat): (st': Nqx)
    ensures !st'.hw.irqEnabled || (n == 0 && st.hw.irqEnabled)
    decreases n
  {
    if n == 0 then st else IrqHandler(Interrupted(st, n - 1)).st
  }

  /**
   * The counter reports the interrupts handled since the last open, and the
   * rest of the session is untouched by them apart from the mask.
   */
  lemma {:induction false} CountsSinceOpen(st: Nqx, n: nat)
    requires n < U32_LIMIT
    ensures Interrupted(Open(st), n).countIrq == n
    ensures Interrupted(Open(st), n) == Open(st).(hw := Interrupted(Open(st), n).hw, countIrq := n)
    // no line is driven: of the hardware state only the mask may differ
    ensures Interrupted(Open(st), n).hw.(irqEnabled := st.hw.irqEnabled) == st.hw
    decreases n
  {
    if n > 0 {
      CountsSinceOpen(st, n - 1);
    }
  }

  /**
   * `nqx_dev_suspend`. With the interrupt line high there is unread data and
   * the suspend is refused; otherwise the session is marked suspended when
   * VEN is high (the interrupt is then armed as a wake source).
   */
  function Suspend(st: Nqx, irqLineHigh: bool): (r: Reply)
    ensures irqLineHigh ==> r == Reply(st, -EBUSY, [])
    ensures !irqLineHigh ==> r.ret == 0 && r.trace == []
    ensures !irqLineHigh ==> r.st.suspended == (st.suspended || st.hw.ven)
    ensures r.st == st.(suspended := r.st.suspended)
  {
    if irqLineHigh then Reply(st, -EBUSY, [])
    else if st.hw.ven then Reply(st.(suspended := true), 0, [])
    else Reply(st, 0, [])
  }

  /** `nqx_dev_resume`: the suspended mark is cleared when VEN is high. */
  function Resume(st: Nqx): (r: Reply)
    ensures r.ret == 0 && r.trace == []
    ensures r.st.suspended == (st.suspended && !st.hw.ven)
    ensures r.st == st.(suspended := r.st.suspended)
  {
    if st.hw.ven then Reply(st.(suspended := false), 0, []) else Reply(st, 0, [])
  }

  /**
   * A successful suspend followed by a resume leaves the session as it was,
   * except that a session suspended with VEN low stays marked suspended.
   */
  lemma SuspendResume(st: Nqx)
    ensures Suspend(st, false).ret == 0
    ensures Resume(Suspend(st, false).st).st == st.(suspended := st.suspended && !st.hw.ven)
    ensures st.hw.ven ==> Suspend(st, false).st.suspended && !Resume(Suspend(st, false).st).st.suspended
  {
  }
}
